=== FILE: README.md ===
# PV dashboard core in Dafny

A model of the data path of a Streamlit dashboard that shows solar (PV)
production and energy usage for four Home Assistant installations:

- **ApiClient** (`home_assistant_api.py`): the REST client. It normalises the
  configured URL and token, builds the request headers, builds the
  `/api/history/period/<start>` request for one entity and window, and sorts
  the endpoint's reply into "a body" or "nothing".
- **History** (`PlotPV.process_pv_data`, ui.py): the normaliser. It turns one
  entity's cumulative-counter history into a frame of hourly deltas. The steps
  are: keep the valid records, sort them by instant, keep the first record per
  instant, clip to the window, resample hourly with forward fill, take the
  first difference and drop undefined rows. `HourlyDeltas` computes the frame
  label by label. `IsHourlyDeltaFrame` is an independent reference definition,
  and `HourlyDeltasIsReference` proves the two agree.
- **HistoryLaws**: properties of the normaliser. They cover which records can
  change the frame, that clipping commutes with sort-and-deduplicate, the sign
  of the deltas, the exact number of rows, and two worked scenarios.
- **Ordering**: the sort-by-key-keep-first step (`sort_index` followed by
  `~index.duplicated(keep='first')`), generic in the key.
- **Charts** (`PlotPV.render*`, ui.py): the choices the charts make. These
  are which bars are drawn, which are negated, the side-by-side index of the
  energy chart, the tick format and the x-axis range.
- **SensorCard** (ui.py): the emoji picked from a sensor name and the style
  picked from its reading.
- **Dashboard** (`main`, app.py): the composer. It covers the query window
  from the date pickers, the entities per instance, the consumed-solar
  derivation, and when each chart is drawn.
- **Wrappers**: `Option` and `Result`.

Instants are whole seconds since the Unix epoch, in UTC. Asia/Jakarta is a
fixed offset of seven hours. Readings are mathematical reals, and `None`
stands for a NaN cell. Library calls the model cannot see are opaque
function-typed parameters:
- `pd.to_datetime` with the zone conversion;
- `float`;
- `isoformat`;
- `urllib.parse.quote`;
- the HTTP call itself.

## Model

| member | source | states |
|---|---|---|
| History.TimestampField | ui.py:220 | `last_updated` wins when truthy, else `last_changed` when truthy, else nothing |
| History.SampleOf | ui.py:220-232 | a record yields a sample exactly when it has a truthy timestamp and state and both parse; the sample carries the parsed instant and value |
| History.ExtractSources | ui.py:218-232 | a sample is extracted if and only if some record of the entity list yields it |
| History.ExtractAppend | ui.py:219-232 | validation is record by record: extracting a concatenation concatenates the extractions |
| History.BadRecordSkipped | ui.py:223-232 | removing an invalid record, wherever it sits, does not change the extracted samples |
| History.Clip | ui.py:251 | the clipped samples are exactly the input samples inside the inclusive window, and sortedness is kept |
| History.ClipAppend | ui.py:251 | clipping distributes over concatenation |
| History.Kept | ui.py:239-251 | the kept samples ascend strictly by instant, come from the input and lie in the window |
| History.KeptCoversWindow | ui.py:239-251 | every valid instant inside the window is still represented after sorting, de-duplication and clipping |
| History.FloorHour | ui.py:254 | the hour label of an instant is an exact hour, at most the instant and less than one hour before it |
| History.LastAtOrBefore | ui.py:254 | the index found is the last sample at or before the label; every later sample is after it |
| History.Ffill | ui.py:254 | the forward-filled reading exists exactly when some sample is at or before the label |
| History.RowsShape | ui.py:254 | the rows for labels 1..k ascend, each is the difference of forward-filled readings, and each label whose predecessor has a reading has its row |
| History.HourlyDeltasIsReference | ui.py:254 | the computed frame meets the reference definition of resample-ffill-diff-dropna: ascending exact hours strictly after the first label, each an hour-on-hour difference, every defined difference present |
| History.Normalize | ui.py:208-262 | no frame exactly when the body is empty or its first list has no valid record; otherwise the reference hourly-delta frame of the kept samples, with no NaN row |
| Ordering.Insert | ui.py:241-244 | inserting into a strictly ascending sequence keeps it ascending, leaves it unchanged when the key is present and adds exactly the new element otherwise |
| Ordering.SortUnique | ui.py:241-244 | the result ascends strictly by key, draws only from the input, and keeps every key of the input |
| Ordering.SortUniqueKeepsFirst | ui.py:244 | each kept element is the first input element with its key |
| Ordering.SortUniqueKeys | ui.py:241-244 | a key survives sorting and de-duplication if and only if it occurs in the input |
| HistoryLaws.FloorHourCommutesWithOffset | ui.py:226 | hour boundaries are the same instants in UTC and in Asia/Jakarta, so UTC labels name the source's local labels |
| HistoryLaws.ClipInsert | ui.py:241-251 | clipping after inserting one sample equals inserting it into the clipped sequence when it lies in the window, and ignoring it otherwise |
| HistoryLaws.ClipSortUniqueCommute | ui.py:241-251 | clipping commutes with sorting and de-duplication |
| HistoryLaws.OnlyWindowSamplesMatter | ui.py:239-256 | two bodies whose valid samples agree inside the window give the same frame |
| HistoryLaws.OutOfWindowRecordIgnored | ui.py:219-256 | when the entity's list already holds a valid record, appending a valid record outside the window does not change the frame |
| HistoryLaws.FirstValidRecordOutsideWindow | ui.py:219-256 | when the entity's list holds no valid record, the answer is "no data", and appending one valid record outside the window turns it into an empty frame |
| HistoryLaws.InvalidRecordIgnored | ui.py:219-256 | inserting an invalid record anywhere does not change the frame |
| HistoryLaws.FfillMonotone | ui.py:254 | on a non-decreasing counter the forward-filled reading never decreases from one label to a later one |
| HistoryLaws.NonDecreasingCounterGivesNonNegativeDeltas | ui.py:254 | a counter that never decreases yields only non-negative hourly deltas |
| HistoryLaws.CounterResetIsNegative | ui.py:254 | deltas are not clamped: a drop from 5 to 2 across an hour gives -3 |
| HistoryLaws.DeltaCount | ui.py:254 | with two or more hour labels the frame has one row fewer than the labels when the first sample is on the hour, two fewer otherwise |
| HistoryLaws.HourlyScenario | ui.py:254 | readings 100, 103, 107 at 10:00, 11:05, 12:02 give 0 at 11:00 and 3 at 12:00 |
| HistoryLaws.OffHourStartDropsFirstRow | ui.py:254 | readings at 10:30, 11:10, 12:30 leave only the 12:00 row |
| ApiClient.RStrip | home_assistant_api.py:9 | the result is a prefix, everything removed is in the character set, and its last character is not |
| ApiClient.RStripUnique | home_assistant_api.py:9 | those three properties determine the stripped string |
| ApiClient.RStripIdempotent | home_assistant_api.py:9 | stripping twice equals stripping once |
| ApiClient.StoredUrl | home_assistant_api.py:9 | the stored URL is a prefix of the configured one ending in a non-slash, with only slashes removed |
| ApiClient.StoredToken | home_assistant_api.py:11-13 | one leading "Bearer " is removed when present, otherwise the token is kept |
| ApiClient.Headers | home_assistant_api.py:15-18 | the Authorization header is "Bearer " plus the stored token and the content type is JSON |
| ApiClient.NewClient | home_assistant_api.py:7-18 | the stored URL is the configured URL with only its trailing slashes removed; the stored token is the configured one with one leading "Bearer " removed when present and unchanged otherwise; the headers carry "Bearer " plus the stored token and the JSON content type |
| ApiClient.ClientIgnoresPrefixAndSlashes | home_assistant_api.py:9-18 | a token with or without its "Bearer " prefix and a URL with any number of trailing slashes give the same client |
| ApiClient.DoubledPrefixKeepsOne | home_assistant_api.py:12-16 | a doubled "Bearer " prefix loses only one copy, so the header carries it twice |
| ApiClient.BaseUrlAsWritten | home_assistant_api.py:34 | the source's base URL is a prefix not ending in '/', 'a', 'p' or 'i', and everything removed is among those characters |
| ApiClient.BaseUrlAsWrittenStripsApiSuffix | home_assistant_api.py:34 | for a host ending outside a, p, i the source's base URL drops "/api" or "/" as intended |
| ApiClient.BaseUrlAsWrittenCutsHost | home_assistant_api.py:34 | the source's base URL of "https://home.ui.nabu.casa" loses its final "a" |
| ApiClient.BaseUrl | home_assistant_api.py:34 | the intended base URL is a prefix of the stored URL not ending in a slash |
| ApiClient.BaseUrlKeepsHost | home_assistant_api.py:34 | the intended base URL keeps the host whole and removes exactly one "/api" with any trailing slashes |
| ApiClient.BaseUrlKeepsCloudHost | home_assistant_api.py:34 | the intended base URL keeps "https://home.ui.nabu.casa" unchanged |
| ApiClient.HistoryRequest | home_assistant_api.py:30-47 | URL is the base URL as the source computes it (`rstrip('/api').rstrip('/')`), the history path and the quoted start stamp; headers are the client's; the four parameters carry the entity, the end stamp and two "false" flags |
| ApiClient.CloudRequestGoesToCutHost | home_assistant_api.py:34-40 | a client configured with "https://home.ui.nabu.casa" sends its history request to the host without its final "a" |
| ApiClient.RequestIgnoresPrefixAndSlashes | home_assistant_api.py:9-47 | configurations differing only in a "Bearer " prefix and trailing slashes produce the same request |
| ApiClient.Classify | home_assistant_api.py:57-77 | a body comes back exactly for a 200 reply with a non-empty body, and it is that body |
| ApiClient.ClassifiedBodyNormalises | home_assistant_api.py:63-67 | a body that comes back is never rejected for being empty: the normaliser fails on it exactly when its first list has no valid record |
| SensorCard.Lower | ui.py:136 | lower-casing maps each character and keeps the length |
| SensorCard.LowerIdempotent | ui.py:136 | lower-casing twice equals lower-casing once |
| SensorCard.FirstMatch | ui.py:143 | the index found is a key contained in the name with no earlier key contained; none found means no key is contained |
| SensorCard.EmojiIsFirstMatch | ui.py:134-143 | the emoji is the one of the first key in table order contained in the lower-cased name, or the chart emoji when none is |
| SensorCard.EmojiIgnoresCase | ui.py:136 | the emoji does not depend on letter case |
| SensorCard.BatteryPowerIsLightning | ui.py:137-143 | "power" precedes "battery", so a battery power sensor gets the lightning bolt |
| SensorCard.Co2Emoji | ui.py:137-143 | "CO2" gets the wind-face emoji |
| SensorCard.SeverityBands | ui.py:151-158 | danger from 70 up, warning from 30 below 70, plain below 30 and for unparsable readings |
| SensorCard.SeverityMonotone | ui.py:151-156 | a higher reading never gets a milder style |
| SensorCard.RenderCard | ui.py:146-171 | the card shows the name and raw value unchanged, the case-insensitive emoji, and the danger, warning or plain style by the band of the parsed reading, plain when it does not parse |
| Charts.TickForSpan | ui.py:444-450 | the multi-day tick format is chosen exactly when two bars are at least two whole days apart |
| Charts.ReplaceHourMinute | ui.py:473-474 | replacing hour and minute keeps the day and the second within the minute |
| Charts.DayBracket | ui.py:472-475 | 00:00 of a bar's day is not after it and 23:59 of it is not before it |
| Charts.AxisRangeFor | ui.py:472-475 | the range is the zero range exactly when there are no bars |
| Charts.AxisRangeBrackets | ui.py:472-475 | the range contains every bar, starts at 00:00 of the first bar's local day and ends at 23:59 of the last bar's local day, each keeping its bar's second within the minute |
| Charts.NegatedValuesOf | ui.py:359 | each export bar is the negated value, NaN staying NaN |
| Charts.NegatedBarsBelowAxis | ui.py:359 | negated non-negative deltas lie at or below zero, and negating again restores them |
| Charts.ProductionChart | ui.py:434-461 | one trace named "Solar Production" with one bar per row: bar i sits at row i's hour in Jakarta wall-clock time and has row i's value, NaN staying NaN |
| Charts.ProductionChartShowsAllBars | ui.py:440-476 | the zero range exactly for an empty frame, every bar inside the range, and the "%d/%m %H:%M" tick format exactly when two rows are two days apart |
| Charts.ValueAt | ui.py:334-337 | the value at an hour is NaN when the frame has no row there and some row's value otherwise |
| Charts.EnergyIndex | ui.py:334-337 | the side-by-side index ascends strictly |
| Charts.EnergyIndexIsUnion | ui.py:334-337 | an hour is in the side-by-side index exactly when either frame has a row there |
| Charts.Columns | ui.py:340-356 | the two columns are "Consumed Solar" then "Import PLN" |
| Charts.ColumnsShareAxis | ui.py:340-356 | both columns share one strictly ascending x axis and have a bar per position |
| Charts.ColumnsAligned | ui.py:334-356 | each column's bar is its frame's value at that hour, NaN where the frame has no row |
| Charts.ColumnsCoverHours | ui.py:334-356 | every hour of either frame, and no other, has a bar position |
| Charts.EnergyChartAsWritten | ui.py:357-365 | the source's energy chart fails exactly when there is no export frame |
| Charts.EnergyChart | ui.py:340-385 | two columns, then the export trace when there is an export frame, then the two battery traces when both battery frames exist |
| Charts.EnergyChartAxis | ui.py:387-413 | the corrected chart's range is zero exactly when neither frame has a row, every column bar lies inside it, and the "%d/%m %H:%M" tick is chosen exactly when two hours of the two frames are two whole days apart |
| Charts.EnergyChartAsWrittenAxis | ui.py:387-413 | the same axis facts hold of the source's chart wherever it is drawn |
| Charts.EnergyChartAgreesWhereSourceDraws | ui.py:357-385 | wherever the source draws a chart the corrected chart is the same one |
| Dashboard.WindowStart | app.py:30-38 | the window start is 00:00 local time on the start date |
| Dashboard.WindowEnd | app.py:31-42 | the window end is 23:59 local time on the end date |
| Dashboard.WindowLeavesLastMinute | app.py:30-42 | one date's window is 23 h 59 min long, and the minute after 23:59 is in no window |
| Dashboard.ReversedDatesGiveEmptyFrames | app.py:36-42 | an end date before the start date gives no frame or an empty one |
| Dashboard.ClipEmptyWindow | ui.py:251 | a window ending before it starts keeps no sample |
| Dashboard.EntitiesOf | app.py:58-69 | only the battery instance reads battery entities |
| Dashboard.EntitiesConsistent | app.py:50-69 | both charts read the same production entity, and the battery entities differ from each other and from the grid meters |
| Dashboard.ConsumedSolar | app.py:94-100 | same hours as production; production itself when export is missing or empty; otherwise production minus export at every hour export has, and NaN where export lacks the hour |
| Dashboard.ConsumedPlusExportIsProduction | app.py:97-99 | consumed solar plus export gives production wherever both are known |
| Dashboard.UsageFramesOf | app.py:71-107 | each usage frame exists exactly when its entity's history yields a frame; each battery frame exists only on the battery instance, only when both battery fetches return a body, and only when its own history yields a frame; the pair exists exactly when both battery histories yield frames |
| Dashboard.DashboardPanels | app.py:44-47 | one panel per instance |
| Dashboard.ProductionPanelDrawnIff | app.py:49-55 | the production chart is drawn exactly when its entity yields a frame, and its bars are that frame's values |
| Dashboard.UsagePanelDrawnIff | app.py:82-117 | the usage chart is drawn exactly when production, grid import and grid export all yield frames, since without an export frame the chart raises and is not drawn |
| Dashboard.IntendedUsagePanelDrawnIff | app.py:82-117 | with the corrected energy chart the usage chart is drawn exactly when production and grid import both yield frames |
| Dashboard.UsagePanelIsIntendedWhereDrawn | app.py:82-117 | wherever the source draws a usage chart the corrected panel draws the same one, and the corrected panel draws more only when the export frame is missing |
| Dashboard.BatteryTracesOnlyForBatteryInstance | app.py:75-117 | a drawn usage chart has two columns and the export trace, plus two battery traces exactly on the battery instance when both battery frames arrive |
| Dashboard.IntendedBatteryTraces | app.py:75-117 | the corrected usage chart has two columns, the export trace exactly when export yields a frame, and two battery traces exactly on the battery instance when both battery frames arrive |
| Dashboard.ExportBarsBelowAxis | app.py:91-117 | on an export meter that only counts up, every export bar lies at or below the axis |
| Dashboard.ExportTraceOfPanel | app.py:91-117 | a drawn usage chart implies the export frame arrived, and its third trace is the export trace of the normalised export history |
| Dashboard.PanelsIndependent | app.py:47-117 | an instance's panel depends only on its own environment |

## Left out

- Streamlit rendering, page layout, CSS, colours, fonts, margins and hover templates are constant styling and not modelled.
- `get_data` (the states endpoint) and `DashboardUI` (page set-up, sidebar, sensor grid) are outside the data path that `main` drives.
- The network, the secrets store and JSON decoding are not modelled. A reply is a `Response` value, and a fetch is a function from request to response, so two identical requests get the same reply.
- `isoformat`, `urllib.parse.quote`, `pd.to_datetime` and `float` are opaque parameters. Their output formats are not modelled.
- The time-zone database is not modelled. Asia/Jakarta is the fixed +7 h offset that app.py also uses.
- Instants are whole seconds. Sub-second precision is dropped.
- Readings are reals. IEEE rounding, infinities and NaN values that `float` accepts are not modelled. A NaN cell is `None`.
- The `except` handlers that log and return `None` are modelled only as the `None` result. Exceptions raised inside pandas are not modelled. A `ValueError` or `TypeError` from `float(state)` or from the timestamp parse is caught per record (ui.py:231); the parsers' `None` stands for it.
- History.Normalize: pandas' resampler has a fast path that relabels rather than forward-fills when the clipped index already has an inferred hourly frequency. Frames from that path are not modelled.
- History.Kept: `sort_index` does not promise a stable order for equal instants. The model keeps the first record in input order among records with the same instant.
- SensorCard.Lower: lower-cases ASCII letters only. Python's `str.lower` also maps non-ASCII letters.
- Outside the relabelling path above, when the first kept sample is off the hour the frame has two rows fewer than the hour buckets, not one, because that sample's own label has no forward-filled reading. The model states both cases (`HistoryLaws.DeltaCount`, `HistoryLaws.OffHourStartDropsFirstRow`).
- Consumed solar does not keep only the hours both frames share. The subtraction at app.py:99 aligns on the union of the two indexes; assigning the result into the copy of the production frame (app.py:96-99) reindexes it back to production's hours. So every production hour is kept, and one without an export row becomes NaN (`Dashboard.ConsumedSolar`).
- The production chart and the usage chart fetch the same production entity twice. In the model both fetches get the same reply.

## Findings

| source | as written | input that shows it | evidently intended | confidence | as-written member | corrected member |
|---|---|---|---|---|---|---|
| home_assistant_api.py:34 | `rstrip('/api')` strips any trailing run of the characters '/', 'a', 'p', 'i', not the suffix "/api" | URL `https://home.ui.nabu.casa` gives base URL `https://home.ui.nabu.cas` | remove one trailing "/api" path and the slashes around it, keeping the host whole | not executed | ApiClient.BaseUrlAsWrittenCutsHost | ApiClient.BaseUrlKeepsCloudHost |
| ui.py:358 | the export trace reads `df_export_pln.index` unconditionally, yet app.py:87-92 passes `None` when the export history does not arrive; the `AttributeError` is caught and no usage chart is drawn | production and grid-import histories arrive while the export fetch returns nothing | draw the usage chart without the export trace, as the battery traces are skipped when absent | not executed | Charts.EnergyChartAsWritten | Charts.EnergyChart |

=== FILE: api_client.dfy ===
/** The Home Assistant REST client, `HomeAssistantAPI` in home_assistant_api.py.

    A client is built from one instance's configuration (a URL and a
    long-lived access token); it normalises both, derives the request
    headers, and turns a history query into a request and the endpoint's
    reply into either a body or nothing.

    The network call, the secrets store, JSON decoding, `isoformat` and
    `urllib.parse.quote` are outside the model: the formatters are opaque
    function-typed parameters and a reply arrives as a `Response` value. */
module ApiClient {
  import opened Wrappers
  import opened History

  /** The characters the source's `rstrip('/api')` removes: str.rstrip takes
      a character set, not a suffix. */
  const ApiChars: set<char> := {'/', 'a', 'p', 'i'}

  const BearerPrefix: string := "Bearer "

  /** The path of the history endpoint, between the base URL and the start stamp. */
  const HistoryPath: string := "/api/history/period/"

  type Pairs = seq<(string, string)>

  predicate StartsWith(s: string, prefix: string)
  {
    |prefix| <= |s| && s[..|prefix|] == prefix
  }

  predicate EndsWith(s: string, suffix: string)
  {
    |suffix| <= |s| && s[|s| - |suffix|..] == suffix
  }

  /** Python's `str.rstrip(chars)`: drop trailing characters while they belong to `chars`. */
  function RStrip(s: string, chars: set<char>): (r: string)
    ensures |r| <= |s| && r == s[..|r|]
    ensures forall i :: |r| <= i < |s| ==> s[i] in chars
    ensures |r| > 0 ==> r[|r| - 1] !in chars
  {
    if |s| == 0 || s[|s| - 1] !in chars then s
    else
      var r := RStrip(s[..|s| - 1], chars);
      assert forall i :: |r| <= i < |s| - 1 ==> s[..|s| - 1][i] == s[i];
      r
  }

  /** The three properties of `RStrip` single out its result: the longest
      prefix would leave a stripped character at its end, a shorter one
      would cut off a character outside the set. */
  lemma RStripUnique(s: string, chars: set<char>, r: string)
    requires |r| <= |s| && r == s[..|r|]
    requires forall i :: |r| <= i < |s| ==> s[i] in chars
    requires |r| > 0 ==> r[|r| - 1] !in chars
    ensures r == RStrip(s, chars)
  {
    var q := RStrip(s, chars);
    assert |r| > 0 ==> r[|r| - 1] == s[|r| - 1];
    assert |q| > 0 ==> q[|q| - 1] == s[|q| - 1];
    assert |q| == |r|;
  }

  /** Stripping twice with the same set changes nothing more. */
  lemma RStripIdempotent(s: string, chars: set<char>)
    ensures RStrip(RStrip(s, chars), chars) == RStrip(s, chars)
  {
    var r := RStrip(s, chars);
    RStripUnique(r, chars, r);
  }

  /** A string with a kept last character followed by strippable characters
      strips back to the string itself. */
  lemma RStripSuffix(u: string, tail: string, chars: set<char>)
    requires |u| > 0 && u[|u| - 1] !in chars
    requires forall i :: 0 <= i < |tail| ==> tail[i] in chars
    ensures RStrip(u + tail, chars) == u
  {
    var s := u + tail;
    assert s[..|u|] == u;
    forall i | |u| <= i < |s|
      ensures s[i] in chars
    {
      assert s[i] == tail[i - |u|];
    }
    RStripUnique(s, chars, u);
  }

  /** The instance configuration the secrets store holds. */
  datatype Config = Config(url: string, token: string)

  /** A constructed client: the stored URL and token and the request headers. */
  datatype Client = Client(url: string, token: string, headers: Pairs)

  /** Lookup of the first pair with the given key. */
  function Lookup(pairs: Pairs, key: string): (r: Option<string>)
    ensures r.Some? <==> exists i :: 0 <= i < |pairs| && pairs[i].0 == key
    ensures r.Some? ==> exists i :: 0 <= i < |pairs| && pairs[i] == (key, r.value)
  {
    if |pairs| == 0 then None
    else if pairs[0].0 == key then Some(pairs[0].1)
    else
      var r := Lookup(pairs[1..], key);
      assert forall i :: 1 <= i < |pairs| ==> pairs[1..][i - 1] == pairs[i];
      r
  }

  /** The stored URL: the configured one without trailing slashes. */
  function StoredUrl(url: string): (r: string)
    ensures StartsWith(url, r) && (|r| > 0 ==> r[|r| - 1] != '/')
    ensures forall i :: |r| <= i < |url| ==> url[i] == '/'
  {
    RStrip(url, {'/'})
  }

  /** The stored token: one leading "Bearer " is removed, if present. */
  function StoredToken(token: string): (r: string)
    ensures StartsWith(token, BearerPrefix) ==> BearerPrefix + r == token
    ensures !StartsWith(token, BearerPrefix) ==> r == token
  {
    if StartsWith(token, BearerPrefix) then token[|BearerPrefix|..] else token
  }

  /** The request headers for a stored token. */
  function Headers(token: string): (h: Pairs)
    ensures Lookup(h, "Authorization") == Some(BearerPrefix + token)
    ensures Lookup(h, "Content-Type") == Some("application/json")
  {
    [("Authorization", BearerPrefix + token), ("Content-Type", "application/json")]
  }

  /** `HomeAssistantAPI.__init__` after the secrets lookup. */
  function NewClient(c: Config): (cl: Client)
    ensures StartsWith(c.url, cl.url) && (|cl.url| > 0 ==> cl.url[|cl.url| - 1] != '/')
    ensures forall i :: |cl.url| <= i < |c.url| ==> c.url[i] == '/'
    ensures StartsWith(c.token, BearerPrefix) ==> BearerPrefix + cl.token == c.token
    ensures !StartsWith(c.token, BearerPrefix) ==> cl.token == c.token
    ensures Lookup(cl.headers, "Authorization") == Some(BearerPrefix + cl.token)
    ensures Lookup(cl.headers, "Content-Type") == Some("application/json")
  {
    var token := StoredToken(c.token);
    Client(StoredUrl(c.url), token, Headers(token))
  }

  /** A token given with or without its "Bearer " prefix authorises the same
      way, and trailing slashes of the URL do not matter: the client is the
      same. */
  lemma ClientIgnoresPrefixAndSlashes(url: string, slashes: nat, token: string)
    requires !StartsWith(token, BearerPrefix)
    requires |url| > 0 && url[|url| - 1] != '/'
    ensures NewClient(Config(url + Slashes(slashes), BearerPrefix + token)) == NewClient(Config(url, token))
  {
    assert StartsWith(BearerPrefix + token, BearerPrefix) by {
      assert (BearerPrefix + token)[..|BearerPrefix|] == BearerPrefix;
    }
    assert (BearerPrefix + token)[|BearerPrefix|..] == token;
    RStripSuffix(url, Slashes(slashes), {'/'});
    RStripSuffix(url, [], {'/'});
    assert url + [] == url;
  }

  function Slashes(n: nat): (s: string)
    ensures |s| == n && forall i :: 0 <= i < n ==> s[i] == '/'
  {
    seq(n, _ => '/')
  }

  /** Only one "Bearer " is removed: a doubled prefix keeps one copy, which
      then appears twice in the Authorization header. */
  lemma DoubledPrefixKeepsOne(token: string)
    ensures StoredToken(BearerPrefix + BearerPrefix + token) == BearerPrefix + token
    ensures Lookup(NewClient(Config("", BearerPrefix + BearerPrefix + token)).headers, "Authorization")
            == Some(BearerPrefix + BearerPrefix + token)
  {
    var s := BearerPrefix + BearerPrefix + token;
    assert s[..|BearerPrefix|] == BearerPrefix;
    assert s[|BearerPrefix|..] == BearerPrefix + token;
  }

  /** The base URL exactly as the source computes it,
      `self.url.rstrip('/api').rstrip('/')`: trailing slashes and trailing
      letters a, p, i are all removed, whatever word they end. */
  function BaseUrlAsWritten(url: string): (r: string)
    ensures StartsWith(url, r) && (|r| > 0 ==> r[|r| - 1] !in ApiChars)
    ensures forall i :: |r| <= i < |url| ==> url[i] in ApiChars
  {
    var once := RStrip(url, ApiChars);
    var r := RStrip(once, {'/'});
    assert r == once by {
      if |once| > 0 { assert once[|once| - 1] !in ApiChars; }
    }
    r
  }

  /** With a host that ends in a letter outside a, p, i, the source's base URL
      removes an "/api" suffix and trailing slashes as intended. */
  lemma BaseUrlAsWrittenStripsApiSuffix(u: string)
    requires |u| > 0 && u[|u| - 1] !in ApiChars
    ensures BaseUrlAsWritten(u + "/api") == u
    ensures BaseUrlAsWritten(u + "/") == u
    ensures BaseUrlAsWritten(u) == u
  {
    RStripSuffix(u, "/api", ApiChars);
    RStripSuffix(u, "/", ApiChars);
    RStripSuffix(u, [], ApiChars);
    assert u + [] == u;
  }

  /** A host ending in "a" loses letters that belong to its name: the Nabu
      Casa cloud address becomes a different host. */
  lemma BaseUrlAsWrittenCutsHost()
    ensures BaseUrlAsWritten(CloudHost) == CloudHost[..|CloudHost| - 1]
  {
    var u := CloudHost[..|CloudHost| - 1];
    assert u[|u| - 1] == 's';
    assert u + "a" == CloudHost;
    RStripSuffix(u, "a", ApiChars);
  }

  /** A Home Assistant Cloud remote address, whose host name ends in "a". */
  const CloudHost: string := "https://home.ui.nabu.casa"

  /** The base URL as evidently intended: drop trailing slashes, then one
      "/api" suffix, then the slashes before it. */
  function BaseUrl(url: string): (r: string)
    ensures StartsWith(url, r) && (|r| > 0 ==> r[|r| - 1] != '/')
  {
    var u := RStrip(url, {'/'});
    if EndsWith(u, "/api") then
      var v := RStrip(u[..|u| - 4], {'/'});
      assert url[..|v|] == v;
      v
    else u
  }

  /** The intended base URL keeps any host whole and removes exactly one
      "/api" path, with or without trailing slashes. */
  lemma BaseUrlKeepsHost(u: string, slashes: nat)
    requires |u| > 0 && u[|u| - 1] != '/' && !EndsWith(u, "/api")
    ensures BaseUrl(u + Slashes(slashes)) == u
    ensures BaseUrl(u + "/api" + Slashes(slashes)) == u
  {
    RStripSuffix(u, Slashes(slashes), {'/'});
    var w := u + "/api";
    assert w[|w| - 1] == 'i';
    assert u + "/api" + Slashes(slashes) == w + Slashes(slashes);
    RStripSuffix(w, Slashes(slashes), {'/'});
    assert EndsWith(w, "/api") by { assert w[|w| - 4..] == "/api"; }
    assert w[..|w| - 4] == u;
    RStripSuffix(u, [], {'/'});
    assert u + [] == u;
  }

  /** The cloud address that the source cuts short is kept by the intended
      definition. */
  lemma BaseUrlKeepsCloudHost()
    ensures BaseUrl(CloudHost) == CloudHost
  {
    var u := CloudHost;
    assert u[|u| - 4] == 'c';
    assert !EndsWith(u, "/api") by { assert u[|u| - 4..][0] != "/api"[0]; }
    BaseUrlKeepsHost(u, 0);
    assert u + Slashes(0) == u;
  }

  /** The library formatters the request is built with, left opaque:
      `datetime.isoformat` on an instant and `urllib.parse.quote`. */
  datatype Formatters = Formatters(iso: int -> string, quote: string -> string)

  /** One GET request: its URL, headers and query parameters. */
  datatype Request = Request(url: string, headers: Pairs, params: Pairs)

  /** The history request of `get_pv_statistics` for one entity and window,
      on the base URL as the source computes it. */
  function HistoryRequest(cl: Client, fmt: Formatters, start: int, end: int, entity: string): (q: Request)
    ensures q.url == BaseUrlAsWritten(cl.url) + HistoryPath + fmt.quote(fmt.iso(start))
    ensures q.headers == cl.headers
    ensures Lookup(q.params, "filter_entity_id") == Some(entity)
    ensures Lookup(q.params, "end_time") == Some(fmt.iso(end))
    ensures Lookup(q.params, "minimal_response") == Some("false")
    ensures Lookup(q.params, "significant_changes_only") == Some("false")
    ensures |q.params| == 4
  {
    var params := [("filter_entity_id", entity),
                   ("end_time", fmt.iso(end)),
                   ("minimal_response", "false"),
                   ("significant_changes_only", "false")];
    assert "filter_entity_id"[0] != "minimal_response"[0] && "filter_entity_id"[0] != "significant_changes_only"[0];
    assert "end_time"[0] != "minimal_response"[0] && "end_time"[0] != "significant_changes_only"[0];
    assert "filter_entity_id"[0] != "end_time"[0] && "minimal_response"[0] != "significant_changes_only"[0];
    assert params[3..] == [("significant_changes_only", "false")];
    assert Lookup(params[3..], "significant_changes_only") == Some("false");
    assert params[2..] == [("minimal_response", "false")] + params[3..];
    assert Lookup(params[2..], "significant_changes_only") == Some("false");
    assert Lookup(params[2..], "minimal_response") == Some("false");
    assert params[1..] == [("end_time", fmt.iso(end))] + params[2..];
    assert Lookup(params[1..], "significant_changes_only") == Some("false");
    assert Lookup(params[1..], "minimal_response") == Some("false");
    Request(BaseUrlAsWritten(cl.url) + HistoryPath + fmt.quote(fmt.iso(start)), cl.headers, params)
  }

  /** Two configurations that differ only in a "Bearer " prefix and trailing
      slashes produce the same request. */
  lemma RequestIgnoresPrefixAndSlashes(url: string, slashes: nat, token: string, fmt: Formatters,
                                       start: int, end: int, entity: string)
    requires !StartsWith(token, BearerPrefix)
    requires |url| > 0 && url[|url| - 1] != '/'
    ensures HistoryRequest(NewClient(Config(url + Slashes(slashes), BearerPrefix + token)), fmt, start, end, entity)
            == HistoryRequest(NewClient(Config(url, token)), fmt, start, end, entity)
  {
    ClientIgnoresPrefixAndSlashes(url, slashes, token);
  }

  /** The Nabu Casa cloud address is queried on a host without its last letter. */
  lemma CloudRequestGoesToCutHost(token: string, fmt: Formatters, start: int, end: int, entity: string)
    ensures HistoryRequest(NewClient(Config(CloudHost, token)), fmt, start, end, entity).url
            == CloudHost[..|CloudHost| - 1] + HistoryPath + fmt.quote(fmt.iso(start))
  {
    var u := CloudHost;
    assert u[|u| - 1] == 'a';
    RStripSuffix(u, [], {'/'});
    assert u + [] == u;
    BaseUrlAsWrittenCutsHost();
  }

  /** The endpoint's reply: an exception on the way (`Raised`), or a status
      code with the decoded body. */
  datatype Response = Raised | Reply(status: int, body: HistoryBody)

  /** The result classification of `get_pv_statistics`: the body of a 200
      reply that holds at least one entity list, `None` otherwise. */
  function Classify(resp: Response): (r: Option<HistoryBody>)
    ensures r.Some? <==> resp.Reply? && resp.status == 200 && |resp.body| > 0
    ensures r.Some? ==> r.value == resp.body
  {
    match resp
    case Raised => None
    case Reply(status, body) => if status == 200 && |body| > 0 then Some(body) else None
  }

  /** Whatever the reply, a body that comes through is one the normaliser
      does not reject for being empty: the normaliser fails on it exactly when
      the first entity list carries no valid record. */
  lemma ClassifiedBodyNormalises(resp: Response, lo: int, hi: int, p: Parsers)
    requires Classify(resp).Some?
    ensures Normalize(Classify(resp).value, lo, hi, p).None?
            <==> |Extract(Classify(resp).value[0], p)| == 0
  {
  }
}

=== FILE: charts.dfy ===
/** The chart choices of `PlotPV` in ui.py: which bars each chart draws, with
    which sign, over which index, with which tick format and x-axis range.

    Colours, fonts, margins, hover templates and the hover date format are
    constant styling and are left out. Bar positions are local Asia/Jakarta wall-clock
    seconds: the production charts strip the zone with `tz_localize(None)`,
    which keeps the wall-clock reading, and the energy chart's zone-aware
    index is drawn at the same wall-clock reading. */
module Charts {
  import opened Wrappers
  import opened Ordering
  import opened History

  const DaySeconds: int := 86400

  /** The tick format choice: `"%H:%M"` for a single day, `"%d/%m %H:%M"` when
      the data spans more than one whole day. */
  datatype TickChoice = SingleDay | MultiDay

  function TickFormat(c: TickChoice): string
  {
    match c
    case SingleDay => "%H:%M"
    case MultiDay => "%d/%m %H:%M"
  }

  /** Wall-clock seconds in Asia/Jakarta of a UTC instant. */
  function Local(t: int): int
  {
    t + JakartaOffset
  }

  function MinOf(xs: seq<int>): (m: int)
    requires |xs| > 0
    ensures m in xs && forall i :: 0 <= i < |xs| ==> m <= xs[i]
  {
    if |xs| == 1 then xs[0]
    else
      var m := MinOf(xs[1..]);
      assert forall i :: 1 <= i < |xs| ==> xs[i] == xs[1..][i - 1];
      if xs[0] <= m then xs[0] else m
  }

  function MaxOf(xs: seq<int>): (m: int)
    requires |xs| > 0
    ensures m in xs && forall i :: 0 <= i < |xs| ==> xs[i] <= m
  {
    if |xs| == 1 then xs[0]
    else
      var m := MaxOf(xs[1..]);
      assert forall i :: 1 <= i < |xs| ==> xs[i] == xs[1..][i - 1];
      if m <= xs[0] then xs[0] else m
  }

  /** `(index.max() - index.min()).days > 1`, with 0 days for an empty index.
      `Timedelta.days` rounds toward minus infinity, which on the non-negative
      span is Dafny's division. */
  function TickFor(xs: seq<int>): (c: TickChoice)
  {
    if |xs| == 0 then SingleDay
    else if (MaxOf(xs) - MinOf(xs)) / DaySeconds > 1 then MultiDay
    else SingleDay
  }

  /** The multi-day format is chosen exactly when two bars lie at least two
      whole days apart; a span of one day and 23 hours stays single-day. */
  lemma TickForSpan(xs: seq<int>)
    ensures TickFor(xs) == MultiDay
            <==> exists i, j :: 0 <= i < |xs| && 0 <= j < |xs| && xs[j] - xs[i] >= 2 * DaySeconds
  {
    if |xs| > 0 {
      var lo, hi := MinOf(xs), MaxOf(xs);
      var i :| 0 <= i < |xs| && xs[i] == lo;
      var j :| 0 <= j < |xs| && xs[j] == hi;
      if (hi - lo) / DaySeconds > 1 {
        assert xs[j] - xs[i] >= 2 * DaySeconds;
      }
    }
  }

  /** The x-axis range: `[0, 0]` for no data, otherwise local wall-clock
      seconds from the first bar's day at 00:00 to the last bar's day at 23:59. */
  datatype AxisRange = ZeroRange | Span(lo: int, hi: int)

  /** `datetime.replace(hour=h, minute=m)` on wall-clock seconds: the same
      day and the same second within the minute. */
  function ReplaceHourMinute(l: int, h: int, m: int): (r: int)
    requires 0 <= h < 24 && 0 <= m < 60
    ensures r / DaySeconds == l / DaySeconds
    ensures r % DaySeconds == h * HourSeconds + m * 60 + l % 60
  {
    DayOfSecond(l);
    var r := l - l % DaySeconds + h * HourSeconds + m * 60 + l % 60;
    assert r == DaySeconds * (l / DaySeconds) + (h * HourSeconds + m * 60 + l % 60);
    r
  }

  /** A wall-clock second splits into its day, its minute of the day and its
      second of the minute. */
  lemma DayOfSecond(l: int)
    ensures l == DaySeconds * (l / DaySeconds) + 60 * ((l % DaySeconds) / 60) + l % 60
    ensures 0 <= (l % DaySeconds) / 60 < 1440
  {
    var d := l % DaySeconds;
    var q := l / DaySeconds;
    assert l == DaySeconds * q + d;
    var r := d / 60;
    assert d == 60 * r + d % 60;
    assert l == 60 * (1440 * q + r) + d % 60;
    MinuteRemainder(l, 1440 * q + r, d % 60);
  }

  /** The second within the minute is determined by any split into whole
      minutes and a remainder below 60. */
  lemma MinuteRemainder(a: int, k: int, s: int)
    requires a == 60 * k + s && 0 <= s < 60
    ensures a % 60 == s
  {
    var q := a / 60;
    assert a == 60 * q + a % 60;
    assert 60 * (q - k) == s - a % 60;
  }

  /** 00:00 of a second's day, keeping its second within the minute, is not
      later than it; 23:59 of the same day is not earlier. */
  lemma DayBracket(l: int)
    ensures ReplaceHourMinute(l, 0, 0) <= l <= ReplaceHourMinute(l, 23, 59)
  {
    DayOfSecond(l);
  }

  function AxisRangeFor(xs: seq<int>): (r: AxisRange)
    ensures r.ZeroRange? <==> |xs| == 0
  {
    if |xs| == 0 then ZeroRange
    else Span(ReplaceHourMinute(Local(MinOf(xs)), 0, 0), ReplaceHourMinute(Local(MaxOf(xs)), 23, 59))
  }

  /** The range brackets every bar, starts on the first bar's local day at
      00:00 and ends on the last bar's local day at 23:59, each keeping its
      bar's second within the minute. */
  lemma AxisRangeBrackets(xs: seq<int>)
    requires |xs| > 0
    ensures forall i :: 0 <= i < |xs| ==> AxisRangeFor(xs).lo <= Local(xs[i]) <= AxisRangeFor(xs).hi
    ensures AxisRangeFor(xs).lo / DaySeconds == Local(MinOf(xs)) / DaySeconds
    ensures AxisRangeFor(xs).hi / DaySeconds == Local(MaxOf(xs)) / DaySeconds
    ensures AxisRangeFor(xs).lo % DaySeconds == Local(MinOf(xs)) % 60
    ensures AxisRangeFor(xs).hi % DaySeconds == 23 * HourSeconds + 59 * 60 + Local(MaxOf(xs)) % 60
  {
    DayBracket(Local(MinOf(xs)));
    DayBracket(Local(MaxOf(xs)));
  }

  /** One bar trace: its legend name, bar positions and bar heights (`None`
      is a NaN height, drawn as no bar). */
  datatype Trace = Trace(name: string, x: seq<int>, y: seq<Option<real>>)

  datatype Chart = Chart(traces: seq<Trace>, tick: TickChoice, range: AxisRange)

  function HoursOf(f: Frame): (xs: seq<int>)
    ensures |xs| == |f| && forall i :: 0 <= i < |f| ==> xs[i] == f[i].hour
  {
    seq(|f|, i requires 0 <= i < |f| => f[i].hour)
  }

  function LocalHours(f: Frame): (xs: seq<int>)
    ensures |xs| == |f| && forall i :: 0 <= i < |f| ==> xs[i] == Local(f[i].hour)
  {
    seq(|f|, i requires 0 <= i < |f| => Local(f[i].hour))
  }

  function ValuesOf(f: Frame): (ys: seq<Option<real>>)
    ensures |ys| == |f| && forall i :: 0 <= i < |f| ==> ys[i] == f[i].value
  {
    seq(|f|, i requires 0 <= i < |f| => f[i].value)
  }

  function Negate(v: Option<real>): Option<real>
  {
    if v.Some? then Some(-v.value) else None
  }

  /** `-df["value"]`: NaN stays NaN. */
  function NegatedValuesOf(f: Frame): (ys: seq<Option<real>>)
    ensures |ys| == |f| && forall i :: 0 <= i < |f| ==> ys[i] == Negate(f[i].value)
  {
    seq(|f|, i requires 0 <= i < |f| => Negate(f[i].value))
  }

  /** Negated bars of non-negative deltas lie below the axis, and negating
      again gives back the frame's values. */
  lemma NegatedBarsBelowAxis(f: Frame)
    requires forall i :: 0 <= i < |f| ==> f[i].value.Some? && f[i].value.value >= 0.0
    ensures forall i :: 0 <= i < |f| ==> NegatedValuesOf(f)[i].Some? && NegatedValuesOf(f)[i].value <= 0.0
    ensures forall i :: 0 <= i < |f| ==> Negate(NegatedValuesOf(f)[i]) == f[i].value
  {
  }

  /** `render_solar_production`: one trace of the frame's values at its hours. */
  function ProductionChart(f: Frame): (c: Chart)
    ensures |c.traces| == 1 && c.traces[0].name == "Solar Production"
    ensures |c.traces[0].x| == |f| && |c.traces[0].y| == |f|
    ensures forall i :: 0 <= i < |f| ==> c.traces[0].x[i] == Local(f[i].hour) && c.traces[0].y[i] == f[i].value
  {
    Chart([Trace("Solar Production", LocalHours(f), ValuesOf(f))], TickFor(HoursOf(f)), AxisRangeFor(HoursOf(f)))
  }

  /** Every production bar lies inside the axis range, and the multi-day
      format is used exactly when two bars are two days or more apart. */
  lemma ProductionChartShowsAllBars(f: Frame)
    ensures ProductionChart(f).range.ZeroRange? <==> |f| == 0
    ensures |f| > 0 ==> forall i :: 0 <= i < |f| ==>
              ProductionChart(f).range.lo <= ProductionChart(f).traces[0].x[i] <= ProductionChart(f).range.hi
    ensures TickFormat(ProductionChart(f).tick) == "%d/%m %H:%M"
            <==> exists i, j :: 0 <= i < |f| && 0 <= j < |f| && f[j].hour - f[i].hour >= 2 * DaySeconds
  {
    var xs := HoursOf(f);
    TickForSpan(xs);
    if |f| > 0 {
      AxisRangeBrackets(xs);
    }
  }

  predicate HasHour(f: Frame, h: int)
  {
    exists i :: 0 <= i < |f| && f[i].hour == h
  }

  /** The value a frame holds at an hour, `None` (NaN) when it has no row there. */
  function ValueAt(f: Frame, h: int): (v: Option<real>)
    ensures !HasHour(f, h) ==> v.None?
    ensures HasHour(f, h) ==> exists i :: 0 <= i < |f| && f[i].hour == h && f[i].value == v
  {
    if |f| == 0 then None
    else if f[0].hour == h then f[0].value
    else
      var v := ValueAt(f[1..], h);
      assert forall i :: 1 <= i < |f| ==> f[1..][i - 1] == f[i];
      v
  }

  function Id(x: int): int { x }

  /** The index of `pd.DataFrame({"Consumed Solar": ..., "Import PLN": ...})`:
      the sorted union of both frames' hours. */
  function EnergyIndex(consumed: Frame, imp: Frame): (idx: seq<int>)
    ensures StrictlyIncreasing(idx, Id)
  {
    SortUnique(HoursOf(consumed) + HoursOf(imp), Id)
  }

  /** Every hour of either frame is in the index, and nothing else. */
  lemma EnergyIndexIsUnion(consumed: Frame, imp: Frame, h: int)
    ensures h in EnergyIndex(consumed, imp) <==> HasHour(consumed, h) || HasHour(imp, h)
  {
    var xs := HoursOf(consumed) + HoursOf(imp);
    SortUniqueKeys(xs, Id, h);
    MemberIsKey(EnergyIndex(consumed, imp), h);
    JoinedHours(consumed, imp, h);
  }

  /** With the identity key, having key `h` is being a member. */
  lemma MemberIsKey(xs: seq<int>, h: int)
    ensures h in xs <==> HasKey(xs, h, Id)
  {
    if h in xs {
      var k :| 0 <= k < |xs| && xs[k] == h;
      assert Id(xs[k]) == h;
    }
  }

  lemma JoinedHours(consumed: Frame, imp: Frame, h: int)
    ensures HasKey(HoursOf(consumed) + HoursOf(imp), h, Id) <==> HasHour(consumed, h) || HasHour(imp, h)
  {
    var xs := HoursOf(consumed) + HoursOf(imp);
    if HasHour(consumed, h) {
      var i :| 0 <= i < |consumed| && consumed[i].hour == h;
      assert Id(xs[i]) == h;
    } else if HasHour(imp, h) {
      var i :| 0 <= i < |imp| && imp[i].hour == h;
      assert Id(xs[|consumed| + i]) == h;
    }
    if HasKey(xs, h, Id) {
      var i :| 0 <= i < |xs| && Id(xs[i]) == h;
      if i < |consumed| {
        assert consumed[i].hour == h;
      } else {
        assert imp[i - |consumed|].hour == h;
      }
    }
  }

  /** A column of the side-by-side frame: the frame's value at each index hour. */
  function Aligned(f: Frame, idx: seq<int>): (ys: seq<Option<real>>)
    ensures |ys| == |idx| && forall i :: 0 <= i < |idx| ==> ys[i] == ValueAt(f, idx[i])
  {
    seq(|idx|, i requires 0 <= i < |idx| => ValueAt(f, idx[i]))
  }

  function LocalOf(xs: seq<int>): (ls: seq<int>)
    ensures |ls| == |xs| && forall i :: 0 <= i < |xs| ==> ls[i] == Local(xs[i])
  {
    seq(|xs|, i requires 0 <= i < |xs| => Local(xs[i]))
  }

  /** The export trace: its bars point down. */
  function ExportTrace(exported: Frame): Trace
  {
    Trace("Export PLN", LocalHours(exported), NegatedValuesOf(exported))
  }

  /** The two battery traces: discharge up, charge down. */
  function BatteryTraces(fromBattery: Frame, toBattery: Frame): seq<Trace>
  {
    [Trace("Energy from Battery", LocalHours(fromBattery), ValuesOf(fromBattery)),
     Trace("Energy to Battery", LocalHours(toBattery), NegatedValuesOf(toBattery))]
  }

  /** The chart `render_energy_usage` draws, given every frame it reads.
      Tick format and range follow the side-by-side index only. */
  function UsageChart(consumed: Frame, imp: Frame, exportedTraces: seq<Trace>,
                      fromBattery: Option<Frame>, toBattery: Option<Frame>): Chart
  {
    var idx := EnergyIndex(consumed, imp);
    var base := Columns(consumed, imp) + exportedTraces;
    var traces := if fromBattery.Some? && toBattery.Some?
                  then base + BatteryTraces(fromBattery.value, toBattery.value)
                  else base;
    Chart(traces, TickFor(idx), AxisRangeFor(idx))
  }

  /** The two side-by-side columns: consumed solar and grid import, each
      aligned on the union index. */
  function Columns(consumed: Frame, imp: Frame): (cols: seq<Trace>)
    ensures |cols| == 2 && cols[0].name == "Consumed Solar" && cols[1].name == "Import PLN"
  {
    var idx := EnergyIndex(consumed, imp);
    [Trace("Consumed Solar", LocalOf(idx), Aligned(consumed, idx)),
     Trace("Import PLN", LocalOf(idx), Aligned(imp, idx))]
  }

  /** `render_energy_usage` as written: the exported trace reads
      `df_export_pln.index` unconditionally, so a missing exported frame raises
      an `AttributeError`, the surrounding `try` reports it, and no chart is
      drawn. */
  function EnergyChartAsWritten(consumed: Frame, imp: Frame, exported: Option<Frame>,
                                fromBattery: Option<Frame>, toBattery: Option<Frame>): (r: Result<Chart, string>)
    ensures r.Failure? <==> exported.None?
  {
    if exported.None? then Failure("'NoneType' object has no attribute 'index'")
    else Success(UsageChart(consumed, imp, [ExportTrace(exported.value)], fromBattery, toBattery))
  }

  /** `render_energy_usage` as the calling code evidently expects it: the
      exported trace is drawn when there is an exported frame and left out when
      there is none, like the battery traces. */
  function EnergyChart(consumed: Frame, imp: Frame, exported: Option<Frame>,
                       fromBattery: Option<Frame>, toBattery: Option<Frame>): (c: Chart)
    ensures |c.traces| == 2 + (if exported.Some? then 1 else 0)
                            + (if fromBattery.Some? && toBattery.Some? then 2 else 0)
    ensures c.traces[..2] == Columns(consumed, imp)
    ensures exported.Some? ==> c.traces[2] == ExportTrace(exported.value)
    ensures fromBattery.Some? && toBattery.Some?
            ==> c.traces[|c.traces| - 2..] == BatteryTraces(fromBattery.value, toBattery.value)
  {
    UsageChart(consumed, imp, if exported.Some? then [ExportTrace(exported.value)] else [],
               fromBattery, toBattery)
  }

  /** Every bar position lies inside the range, which is then a span. */
  ghost predicate InRange(r: AxisRange, xs: seq<int>)
  {
    forall i :: 0 <= i < |xs| ==> r.Span? && r.lo <= xs[i] <= r.hi
  }

  /** The axis of a usage chart follows its two columns: the zero range
      exactly when neither frame has a row, every column bar inside the range,
      and the multi-day tick format exactly when two hours of the two frames
      lie at least two whole days apart. Export and battery bars do not
      decide the axis. */
  ghost predicate AxisFollowsColumns(c: Chart, consumed: Frame, imp: Frame)
  {
    var xs := HoursOf(consumed) + HoursOf(imp);
    && |c.traces| >= 2
    && (c.range.ZeroRange? <==> |consumed| == 0 && |imp| == 0)
    && InRange(c.range, c.traces[0].x)
    && InRange(c.range, c.traces[1].x)
    && (TickFormat(c.tick) == "%d/%m %H:%M"
        <==> exists i, j :: 0 <= i < |xs| && 0 <= j < |xs| && xs[j] - xs[i] >= 2 * DaySeconds)
  }

  /** The index holds exactly the hours of the two frames. */
  lemma EnergyIndexMembers(consumed: Frame, imp: Frame)
    ensures forall h :: h in EnergyIndex(consumed, imp) <==> h in HoursOf(consumed) + HoursOf(imp)
  {
    forall h
      ensures h in EnergyIndex(consumed, imp) <==> h in HoursOf(consumed) + HoursOf(imp)
    {
      EnergyIndexIsUnion(consumed, imp, h);
      JoinedHours(consumed, imp, h);
      MemberIsKey(HoursOf(consumed) + HoursOf(imp), h);
    }
  }

  /** Two sequences with the same members have the same pairs of elements two
      days apart. */
  lemma SameMembersSameSpan(a: seq<int>, b: seq<int>)
    requires forall h :: h in a <==> h in b
    ensures (exists i, j :: 0 <= i < |a| && 0 <= j < |a| && a[j] - a[i] >= 2 * DaySeconds)
            ==> (exists i, j :: 0 <= i < |b| && 0 <= j < |b| && b[j] - b[i] >= 2 * DaySeconds)
  {
    if exists i, j :: 0 <= i < |a| && 0 <= j < |a| && a[j] - a[i] >= 2 * DaySeconds {
      var i, j :| 0 <= i < |a| && 0 <= j < |a| && a[j] - a[i] >= 2 * DaySeconds;
      assert a[i] in b && a[j] in b;
      var i' :| 0 <= i' < |b| && b[i'] == a[i];
      var j' :| 0 <= j' < |b| && b[j'] == a[j];
      assert b[j'] - b[i'] >= 2 * DaySeconds;
    }
  }

  /** A range of an index with the members of `xs` is zero exactly when `xs`
      is empty, and it brackets every local position of the index. */
  lemma IndexRange(idx: seq<int>, xs: seq<int>)
    requires forall h :: h in idx <==> h in xs
    ensures AxisRangeFor(idx).ZeroRange? <==> |xs| == 0
    ensures forall i :: 0 <= i < |idx| ==>
              AxisRangeFor(idx).Span? && AxisRangeFor(idx).lo <= Local(idx[i]) <= AxisRangeFor(idx).hi
  {
    if |xs| > 0 {
      var h := xs[0];
      assert h in xs;
    }
    if |idx| > 0 {
      var h := idx[0];
      assert h in idx;
      AxisRangeBrackets(idx);
    }
  }

  /** The tick of an index with the members of `xs` is multi-day exactly when
      two elements of `xs` lie two days apart. */
  lemma IndexTick(idx: seq<int>, xs: seq<int>)
    requires forall h :: h in idx <==> h in xs
    ensures TickFormat(TickFor(idx)) == "%d/%m %H:%M"
            <==> exists i, j :: 0 <= i < |xs| && 0 <= j < |xs| && xs[j] - xs[i] >= 2 * DaySeconds
  {
    TickForSpan(idx);
    SameMembersSameSpan(idx, xs);
    SameMembersSameSpan(xs, idx);
  }

  /** The index's range is zero exactly when neither frame has a row, and it
      brackets every local position of the index. */
  lemma ColumnsRange(consumed: Frame, imp: Frame)
    ensures AxisRangeFor(EnergyIndex(consumed, imp)).ZeroRange? <==> |consumed| == 0 && |imp| == 0
    ensures InRange(AxisRangeFor(EnergyIndex(consumed, imp)), LocalOf(EnergyIndex(consumed, imp)))
  {
    var idx := EnergyIndex(consumed, imp);
    EnergyIndexMembers(consumed, imp);
    IndexRange(idx, HoursOf(consumed) + HoursOf(imp));
    forall i | 0 <= i < |LocalOf(idx)|
      ensures AxisRangeFor(idx).Span? && AxisRangeFor(idx).lo <= LocalOf(idx)[i] <= AxisRangeFor(idx).hi
    {
      assert LocalOf(idx)[i] == Local(idx[i]);
    }
  }

  /** The index's tick is multi-day exactly when two hours of the two frames
      lie two days apart. */
  lemma ColumnsTick(consumed: Frame, imp: Frame)
    ensures var xs := HoursOf(consumed) + HoursOf(imp);
            TickFormat(TickFor(EnergyIndex(consumed, imp))) == "%d/%m %H:%M"
            <==> exists i, j :: 0 <= i < |xs| && 0 <= j < |xs| && xs[j] - xs[i] >= 2 * DaySeconds
  {
    EnergyIndexMembers(consumed, imp);
    IndexTick(EnergyIndex(consumed, imp), HoursOf(consumed) + HoursOf(imp));
  }

  /** A chart whose first two traces sit on the index of the two frames and
      whose tick and range are the index's has its axis follow the columns. */
  lemma AxisOfIndex(c: Chart, consumed: Frame, imp: Frame)
    requires |c.traces| >= 2
    requires c.traces[0].x == LocalOf(EnergyIndex(consumed, imp))
    requires c.traces[1].x == LocalOf(EnergyIndex(consumed, imp))
    requires c.tick == TickFor(EnergyIndex(consumed, imp)) && c.range == AxisRangeFor(EnergyIndex(consumed, imp))
    ensures AxisFollowsColumns(c, consumed, imp)
  {
    ColumnsRange(consumed, imp);
    ColumnsTick(consumed, imp);
  }

  /** The corrected energy chart's axis follows its two columns. */
  lemma EnergyChartAxis(consumed: Frame, imp: Frame, exported: Option<Frame>,
                        fromBattery: Option<Frame>, toBattery: Option<Frame>)
    ensures AxisFollowsColumns(EnergyChart(consumed, imp, exported, fromBattery, toBattery), consumed, imp)
  {
    var c := EnergyChart(consumed, imp, exported, fromBattery, toBattery);
    var idx := EnergyIndex(consumed, imp);
    assert c.traces[..2] == Columns(consumed, imp);
    assert c.traces[0] == c.traces[..2][0] && c.traces[1] == c.traces[..2][1];
    assert c.tick == TickFor(idx) && c.range == AxisRangeFor(idx);
    AxisOfIndex(c, consumed, imp);
  }

  /** The source's energy chart, wherever it is drawn, has the same axis. */
  lemma EnergyChartAsWrittenAxis(consumed: Frame, imp: Frame, exported: Option<Frame>,
                                 fromBattery: Option<Frame>, toBattery: Option<Frame>)
    ensures var r := EnergyChartAsWritten(consumed, imp, exported, fromBattery, toBattery);
            r.Success? ==> AxisFollowsColumns(r.value, consumed, imp)
  {
    EnergyChartAgreesWhereSourceDraws(consumed, imp, exported, fromBattery, toBattery);
    EnergyChartAxis(consumed, imp, exported, fromBattery, toBattery);
  }

  /** Where the source draws a chart, the corrected chart is the same one;
      the corrected chart differs only by also drawing one without exported. */
  lemma EnergyChartAgreesWhereSourceDraws(consumed: Frame, imp: Frame, exported: Option<Frame>,
                                          fromBattery: Option<Frame>, toBattery: Option<Frame>)
    ensures exported.Some? ==> (EnergyChartAsWritten(consumed, imp, exported, fromBattery, toBattery)
                                == Success(EnergyChart(consumed, imp, exported, fromBattery, toBattery)))
    ensures exported.None? ==> EnergyChartAsWritten(consumed, imp, exported, fromBattery, toBattery).Failure?
  {
  }

  /** The two columns share one ascending x axis. */
  lemma ColumnsShareAxis(consumed: Frame, imp: Frame)
    ensures var cols := Columns(consumed, imp);
            && cols[0].x == cols[1].x
            && |cols[0].y| == |cols[0].x| == |cols[1].y|
            && (forall i, j :: 0 <= i < j < |cols[0].x| ==> cols[0].x[i] < cols[0].x[j])
  {
    var idx := EnergyIndex(consumed, imp);
    assert Columns(consumed, imp)[0].x == LocalOf(idx);
    LocalOfIncreasing(idx);
  }

  /** Each bar of a column is its frame's value at that hour, NaN where the
      frame has no row. */
  lemma ColumnsAligned(consumed: Frame, imp: Frame)
    ensures var cols := Columns(consumed, imp);
            forall i :: 0 <= i < |cols[0].x| ==>
              && cols[0].y[i] == ValueAt(consumed, cols[0].x[i] - JakartaOffset)
              && cols[1].y[i] == ValueAt(imp, cols[0].x[i] - JakartaOffset)
  {
    var idx := EnergyIndex(consumed, imp);
    var cols := Columns(consumed, imp);
    assert cols[0] == Trace("Consumed Solar", LocalOf(idx), Aligned(consumed, idx));
    assert cols[1] == Trace("Import PLN", LocalOf(idx), Aligned(imp, idx));
    ColumnValues(consumed, idx);
    ColumnValues(imp, idx);
  }

  /** A column's bar at a position is its frame's value at that local hour. */
  lemma ColumnValues(f: Frame, idx: seq<int>)
    ensures forall i :: 0 <= i < |idx| ==> Aligned(f, idx)[i] == ValueAt(f, LocalOf(idx)[i] - JakartaOffset)
  {
    forall i | 0 <= i < |idx|
      ensures Aligned(f, idx)[i] == ValueAt(f, LocalOf(idx)[i] - JakartaOffset)
    {
      assert LocalOf(idx)[i] - JakartaOffset == idx[i];
    }
  }

  lemma LocalOfIncreasing(idx: seq<int>)
    requires StrictlyIncreasing(idx, Id)
    ensures forall i, j :: 0 <= i < j < |idx| ==> LocalOf(idx)[i] < LocalOf(idx)[j]
  {
    forall i, j | 0 <= i < j < |idx|
      ensures LocalOf(idx)[i] < LocalOf(idx)[j]
    {
      assert Id(idx[i]) < Id(idx[j]);
    }
  }

  /** Every hour of either frame, and no other, has a bar position in the
      two columns. */
  lemma ColumnsCoverHours(consumed: Frame, imp: Frame, h: int)
    ensures HasHour(consumed, h) || HasHour(imp, h) <==> Local(h) in Columns(consumed, imp)[0].x
  {
    var idx := EnergyIndex(consumed, imp);
    EnergyIndexIsUnion(consumed, imp, h);
    var xs := LocalOf(idx);
    if Local(h) in xs {
      var k :| 0 <= k < |xs| && xs[k] == Local(h);
      assert idx[k] == h;
    }
    if h in idx {
      var k :| 0 <= k < |idx| && idx[k] == h;
      assert xs[k] == Local(h);
    }
  }
}

=== FILE: dashboard.dfy ===
/** The dashboard composer, `main` in app.py.

    For each of the four instances it fetches the production history and
    draws the production chart, then fetches the usage entities, derives
    the consumed-solar frame and draws the energy-usage chart when enough of
    the data came through. The query window is 00:00 of the start date to
    23:59 of the end date, Asia/Jakarta time.

    Dates are days since 1970-01-01. The date pickers, the page layout and
    the Streamlit calls are outside the model; the network is a function
    from request to response, so the same request always gets the same
    reply. */
module Dashboard {
  import opened Wrappers
  import opened Ordering
  import opened History
  import opened HistoryLaws
  import opened ApiClient
  import opened Charts

  const Instances: seq<string> := ["Eddie02", "Mawar7", "HajiNawi", "Mawar8"]

  /** The only instance with battery entities and Victron grid meters. */
  const BatteryInstance: string := "Eddie02"

  /** `datetime.time(23, 59)`: seconds from local midnight to the window end. */
  const EndOfDay: int := 23 * HourSeconds + 59 * 60

  /** 00:00 of a local date, as a UTC instant. */
  function WindowStart(day: int): (t: int)
    ensures Local(t) % DaySeconds == 0 && Local(t) / DaySeconds == day
  {
    day * DaySeconds - JakartaOffset
  }

  /** 23:59 of a local date, as a UTC instant. */
  function WindowEnd(day: int): (t: int)
    ensures Local(t) % DaySeconds == EndOfDay && Local(t) / DaySeconds == day
  {
    day * DaySeconds + EndOfDay - JakartaOffset
  }

  /** The window of one date is 23 hours 59 minutes long, and the last minute
      of a date is in no window: it falls between one date's end and the next
      date's start. */
  lemma WindowLeavesLastMinute(day: int)
    ensures WindowEnd(day) - WindowStart(day) == DaySeconds - 60
    ensures WindowStart(day + 1) - WindowEnd(day) == 60
  {
  }

  /** An end date before the start date leaves no sample in the window: the
      normaliser gives nothing or an empty frame. */
  lemma ReversedDatesGiveEmptyFrames(raw: HistoryBody, startDay: int, endDay: int, p: Parsers)
    requires endDay < startDay
    ensures Normalize(raw, WindowStart(startDay), WindowEnd(endDay), p).None?
            || Normalize(raw, WindowStart(startDay), WindowEnd(endDay), p).value == []
  {
    var lo, hi := WindowStart(startDay), WindowEnd(endDay);
    assert hi < lo;
    if |raw| > 0 && |Extract(raw[0], p)| > 0 {
      ClipEmptyWindow(SortUnique(Extract(raw[0], p), Instant), lo, hi);
    }
  }

  /** A window that ends before it starts keeps no sample. */
  lemma {:induction false} ClipEmptyWindow(xs: seq<Sample>, lo: int, hi: int)
    requires hi < lo
    ensures Clip(xs, lo, hi) == []
  {
    if |xs| > 0 {
      ClipEmptyWindow(xs[1..], lo, hi);
    }
  }

  /** The entities one instance's panel reads. */
  datatype Entities = Entities(production: string, gridImport: string, gridExport: string,
                               battery: Option<(string, string)>)

  /** The production entity of the first chart. */
  function SolarEntity(instance: string): string
  {
    if instance == BatteryInstance then "sensor.pv_energy_total" else "sensor.import_energy_plts"
  }

  /** The usage entities, chosen per instance. */
  function EntitiesOf(instance: string): (e: Entities)
    ensures e.battery.Some? <==> instance == BatteryInstance
  {
    if instance == BatteryInstance then
      Entities("sensor.pv_energy_total",
               "sensor.victron_grid_energy_forward_total_32",
               "sensor.victron_grid_energy_reverse_total_32",
               Some(("sensor.energy_from_battery", "sensor.energy_to_battery")))
    else
      Entities("sensor.import_energy_plts",
               "sensor.import_energy_pln",
               "sensor.export_energy_pln",
               None)
  }

  /** Both charts of a panel read the same production entity, and the
      battery entities differ from each other and from the grid meters. */
  lemma EntitiesConsistent(instance: string)
    ensures SolarEntity(instance) == EntitiesOf(instance).production
    ensures EntitiesOf(instance).battery.Some? ==>
              var (fromB, toB) := EntitiesOf(instance).battery.value;
              && fromB != toB
              && fromB != EntitiesOf(instance).gridImport && fromB != EntitiesOf(instance).gridExport
              && toB != EntitiesOf(instance).gridImport && toB != EntitiesOf(instance).gridExport
  {
    if instance == BatteryInstance {
      assert "sensor.energy_from_battery"[14] != "sensor.energy_to_battery"[14];
      assert "sensor.energy_from_battery"[7] != "sensor.victron_grid_energy_forward_total_32"[7];
      assert "sensor.energy_to_battery"[7] != "sensor.victron_grid_energy_reverse_total_32"[7];
    }
  }

  function Sub(a: Option<real>, b: Option<real>): Option<real>
  {
    if a.Some? && b.Some? then Some(a.value - b.value) else None
  }

  /** The consumed-solar frame: production with export subtracted hour by
      hour when there is a non-empty export frame. The subtraction aligns on
      the production hours; an hour export lacks becomes NaN. */
  function ConsumedSolar(production: Frame, exported: Option<Frame>): (c: Frame)
    ensures |c| == |production| && forall i :: 0 <= i < |c| ==> c[i].hour == production[i].hour
    ensures exported.None? || exported.value == [] ==> c == production
    ensures exported.Some? && exported.value != [] ==>
              forall i :: 0 <= i < |c| ==> !HasHour(exported.value, c[i].hour) ==> c[i].value.None?
    ensures exported.Some? && exported.value != [] ==>
              forall i :: 0 <= i < |c| ==> HasHour(exported.value, c[i].hour) ==>
                c[i].value == Sub(production[i].value, ValueAt(exported.value, c[i].hour))
  {
    if exported.None? || exported.value == [] then production
    else
      seq(|production|, i requires 0 <= i < |production| =>
        Row(production[i].hour, Sub(production[i].value, ValueAt(exported.value, production[i].hour))))
  }

  /** Consumed solar and export add back up to production wherever both are
      known. */
  lemma ConsumedPlusExportIsProduction(production: Frame, exported: Frame, i: int)
    requires exported != [] && 0 <= i < |production|
    requires production[i].value.Some? && HasHour(exported, production[i].hour)
    requires ValueAt(exported, production[i].hour).Some?
    ensures ConsumedSolar(production, Some(exported))[i].value.Some?
    ensures ConsumedSolar(production, Some(exported))[i].value.value
            + ValueAt(exported, production[i].hour).value == production[i].value.value
  {
  }

  /** What one instance's panel shows: the production chart and the usage
      chart, each when it is drawn. */
  datatype Panel = Panel(production: Option<Chart>, usage: Option<Chart>)

  /** Everything outside the model a panel depends on: the instance
      configuration, the formatters, the network and the parsers. */
  datatype Environment = Environment(config: Config, fmt: Formatters,
                                     fetch: Request -> Response, parsers: Parsers)

  /** `get_pv_statistics` for one entity over the window. */
  function Fetched(env: Environment, lo: int, hi: int, entity: string): Option<HistoryBody>
  {
    Classify(env.fetch(HistoryRequest(NewClient(env.config), env.fmt, lo, hi, entity)))
  }

  /** `process_pv_data` applied to a fetched body, if there is one. */
  function Processed(env: Environment, lo: int, hi: int, body: Option<HistoryBody>): Option<Frame>
  {
    if body.Some? then Normalize(body.value, lo, hi, env.parsers) else None
  }

  /** The production chart of lines 50-55. */
  function ProductionPanel(instance: string, env: Environment, lo: int, hi: int): Option<Chart>
  {
    var df := Processed(env, lo, hi, Fetched(env, lo, hi, SolarEntity(instance)));
    if df.Some? then Some(ProductionChart(df.value)) else None
  }

  /** The frames the usage chart is drawn from: the battery histories are
      fetched only for an instance with battery entities, and processed only
      when both came back. */
  datatype UsageFrames = UsageFrames(production: Option<Frame>, gridImport: Option<Frame>,
                                     exported: Option<Frame>,
                                     fromBattery: Option<Frame>, toBattery: Option<Frame>)

  function UsageFramesOf(instance: string, env: Environment, lo: int, hi: int): (u: UsageFrames)
    ensures u.production.Some? <==> FrameArrives(env, lo, hi, EntitiesOf(instance).production)
    ensures u.gridImport.Some? <==> FrameArrives(env, lo, hi, EntitiesOf(instance).gridImport)
    ensures u.exported.Some? <==> FrameArrives(env, lo, hi, EntitiesOf(instance).gridExport)
    ensures u.fromBattery.Some? && u.toBattery.Some?
            <==> instance == BatteryInstance
                 && FrameArrives(env, lo, hi, "sensor.energy_from_battery")
                 && FrameArrives(env, lo, hi, "sensor.energy_to_battery")
    ensures u.fromBattery.Some? ==>
              && instance == BatteryInstance
              && Fetched(env, lo, hi, "sensor.energy_from_battery").Some?
              && Fetched(env, lo, hi, "sensor.energy_to_battery").Some?
              && FrameArrives(env, lo, hi, "sensor.energy_from_battery")
    ensures u.toBattery.Some? ==>
              && instance == BatteryInstance
              && Fetched(env, lo, hi, "sensor.energy_from_battery").Some?
              && Fetched(env, lo, hi, "sensor.energy_to_battery").Some?
              && FrameArrives(env, lo, hi, "sensor.energy_to_battery")
  {
    var e := EntitiesOf(instance);
    var fromData := if e.battery.Some? then Fetched(env, lo, hi, e.battery.value.0) else None;
    var toData := if e.battery.Some? then Fetched(env, lo, hi, e.battery.value.1) else None;
    var both := fromData.Some? && toData.Some?;
    UsageFrames(Processed(env, lo, hi, Fetched(env, lo, hi, e.production)),
                Processed(env, lo, hi, Fetched(env, lo, hi, e.gridImport)),
                Processed(env, lo, hi, Fetched(env, lo, hi, e.gridExport)),
                if both then Processed(env, lo, hi, fromData) else None,
                if both then Processed(env, lo, hi, toData) else None)
  }

  /** The usage chart of lines 58-117 as the source draws it: the chart
      raises, and nothing is drawn, when the export frame is missing. */
  function UsagePanel(instance: string, env: Environment, lo: int, hi: int): Option<Chart>
  {
    var e := EntitiesOf(instance);
    var u := UsageFramesOf(instance, env, lo, hi);
    if Fetched(env, lo, hi, e.production).None? || Fetched(env, lo, hi, e.gridImport).None? then None
    else if u.production.Some? && u.gridImport.Some? then
      var r := EnergyChartAsWritten(ConsumedSolar(u.production.value, u.exported), u.gridImport.value,
                                    u.exported, u.fromBattery, u.toBattery);
      if r.Success? then Some(r.value) else None
    else None
  }

  /** The usage chart as evidently intended: drawn with the corrected energy
      chart, which leaves the export trace out when there is no export frame. */
  function IntendedUsagePanel(instance: string, env: Environment, lo: int, hi: int): Option<Chart>
  {
    var e := EntitiesOf(instance);
    var u := UsageFramesOf(instance, env, lo, hi);
    if Fetched(env, lo, hi, e.production).None? || Fetched(env, lo, hi, e.gridImport).None? then None
    else if u.production.Some? && u.gridImport.Some? then
      Some(EnergyChart(ConsumedSolar(u.production.value, u.exported), u.gridImport.value,
                       u.exported, u.fromBattery, u.toBattery))
    else None
  }

  /** One instance's column of the dashboard. */
  function InstancePanel(instance: string, env: Environment, startDay: int, endDay: int): Panel
  {
    var lo, hi := WindowStart(startDay), WindowEnd(endDay);
    Panel(ProductionPanel(instance, env, lo, hi), UsagePanel(instance, env, lo, hi))
  }

  /** The four columns, one per instance, each with its own environment. */
  function DashboardPanels(envs: string -> Environment, startDay: int, endDay: int): (ps: seq<Panel>)
    ensures |ps| == |Instances|
  {
    seq(|Instances|, i requires 0 <= i < |Instances| =>
      InstancePanel(Instances[i], envs(Instances[i]), startDay, endDay))
  }

  /** A frame from the normaliser for an entity over the window. */
  predicate FrameArrives(env: Environment, lo: int, hi: int, entity: string)
  {
    Processed(env, lo, hi, Fetched(env, lo, hi, entity)).Some?
  }

  /** The production chart is drawn exactly when its entity's history comes
      back with a valid record; its bars are that entity's frame. */
  lemma ProductionPanelDrawnIff(instance: string, env: Environment, lo: int, hi: int)
    ensures ProductionPanel(instance, env, lo, hi).Some? <==> FrameArrives(env, lo, hi, SolarEntity(instance))
    ensures ProductionPanel(instance, env, lo, hi).Some? ==>
              var body := Fetched(env, lo, hi, SolarEntity(instance)).value;
              && |body| > 0 && |Extract(body[0], env.parsers)| > 0
              && ProductionPanel(instance, env, lo, hi).value.traces[0].y
                 == ValuesOf(Normalize(body, lo, hi, env.parsers).value)
  {
  }

  /** The source draws the usage chart exactly when production, grid import
      and grid export all yield frames; battery data never decide it. */
  lemma UsagePanelDrawnIff(instance: string, env: Environment, lo: int, hi: int)
    ensures UsagePanel(instance, env, lo, hi).Some?
            <==> FrameArrives(env, lo, hi, EntitiesOf(instance).production)
                 && FrameArrives(env, lo, hi, EntitiesOf(instance).gridImport)
                 && FrameArrives(env, lo, hi, EntitiesOf(instance).gridExport)
  {
  }

  /** The intended usage chart is drawn exactly when production and grid
      import both yield frames; export and battery data never decide it. */
  lemma IntendedUsagePanelDrawnIff(instance: string, env: Environment, lo: int, hi: int)
    ensures IntendedUsagePanel(instance, env, lo, hi).Some?
            <==> FrameArrives(env, lo, hi, EntitiesOf(instance).production)
                 && FrameArrives(env, lo, hi, EntitiesOf(instance).gridImport)
  {
  }

  /** Wherever the source draws a usage chart it is the intended one; the
      intended panel only adds charts for a missing export frame. */
  lemma UsagePanelIsIntendedWhereDrawn(instance: string, env: Environment, lo: int, hi: int)
    ensures UsagePanel(instance, env, lo, hi).Some? ==>
              UsagePanel(instance, env, lo, hi) == IntendedUsagePanel(instance, env, lo, hi)
    ensures IntendedUsagePanel(instance, env, lo, hi).Some? && UsagePanel(instance, env, lo, hi).None?
            ==> !FrameArrives(env, lo, hi, EntitiesOf(instance).gridExport)
  {
    UsagePanelDrawnIff(instance, env, lo, hi);
    IntendedUsagePanelDrawnIff(instance, env, lo, hi);
    if UsagePanel(instance, env, lo, hi).Some? {
      UsagePanelChart(instance, env, lo, hi);
      IntendedUsagePanelChart(instance, env, lo, hi);
    }
  }

  /** A drawn intended usage chart is the corrected chart of its frames. */
  lemma IntendedUsagePanelChart(instance: string, env: Environment, lo: int, hi: int)
    requires IntendedUsagePanel(instance, env, lo, hi).Some?
    ensures var u := UsageFramesOf(instance, env, lo, hi);
            && u.production.Some? && u.gridImport.Some?
            && IntendedUsagePanel(instance, env, lo, hi).value
               == EnergyChart(ConsumedSolar(u.production.value, u.exported), u.gridImport.value,
                              u.exported, u.fromBattery, u.toBattery)
  {
  }

  /** A drawn usage chart is the corrected chart of frames that all arrived. */
  lemma UsagePanelChart(instance: string, env: Environment, lo: int, hi: int)
    requires UsagePanel(instance, env, lo, hi).Some?
    ensures var u := UsageFramesOf(instance, env, lo, hi);
            && u.production.Some? && u.gridImport.Some? && u.exported.Some?
            && UsagePanel(instance, env, lo, hi).value
               == EnergyChart(ConsumedSolar(u.production.value, u.exported), u.gridImport.value,
                              u.exported, u.fromBattery, u.toBattery)
  {
    var u := UsageFramesOf(instance, env, lo, hi);
    EnergyChartAgreesWhereSourceDraws(ConsumedSolar(u.production.value, u.exported), u.gridImport.value,
                                      u.exported, u.fromBattery, u.toBattery);
  }

  /** A drawn usage chart has its two columns and the export trace; battery
      traces appear only on the battery instance, and there only when both
      battery histories yield frames. */
  lemma BatteryTracesOnlyForBatteryInstance(instance: string, env: Environment, lo: int, hi: int)
    requires UsagePanel(instance, env, lo, hi).Some?
    ensures |UsagePanel(instance, env, lo, hi).value.traces|
            == 3 + (if instance == BatteryInstance
                       && FrameArrives(env, lo, hi, "sensor.energy_from_battery")
                       && FrameArrives(env, lo, hi, "sensor.energy_to_battery")
                    then 2 else 0)
  {
    UsagePanelChart(instance, env, lo, hi);
  }

  /** The intended usage chart shows the export trace only when the export
      frame arrives and the battery traces under the same rule as above. */
  lemma IntendedBatteryTraces(instance: string, env: Environment, lo: int, hi: int)
    requires IntendedUsagePanel(instance, env, lo, hi).Some?
    ensures |IntendedUsagePanel(instance, env, lo, hi).value.traces|
            == 2 + (if FrameArrives(env, lo, hi, EntitiesOf(instance).gridExport) then 1 else 0)
                 + (if instance == BatteryInstance
                       && FrameArrives(env, lo, hi, "sensor.energy_from_battery")
                       && FrameArrives(env, lo, hi, "sensor.energy_to_battery")
                    then 2 else 0)
  {
    IntendedUsagePanelChart(instance, env, lo, hi);
  }

  /** The entity's history arrives and its valid readings never decrease. */
  predicate CountsUp(env: Environment, lo: int, hi: int, entity: string)
  {
    var body := Fetched(env, lo, hi, entity);
    body.Some? && |body.value| > 0 && NonDecreasingReadings(Extract(body.value[0], env.parsers))
  }

  /** On a grid export meter that only counts up, the export bars of the
      usage chart never rise above the axis. */
  lemma ExportBarsBelowAxis(instance: string, env: Environment, lo: int, hi: int)
    requires UsagePanel(instance, env, lo, hi).Some?
    requires CountsUp(env, lo, hi, EntitiesOf(instance).gridExport)
    ensures var c := UsagePanel(instance, env, lo, hi).value;
            && |c.traces| > 2
            && c.traces[2].name == "Export PLN"
            && forall i :: 0 <= i < |c.traces[2].y| ==> c.traces[2].y[i].Some? && c.traces[2].y[i].value <= 0.0
  {
    ExportTraceOfPanel(instance, env, lo, hi);
    var body := Fetched(env, lo, hi, EntitiesOf(instance).gridExport).value;
    var f := Normalize(body, lo, hi, env.parsers).value;
    NonDecreasingCounterGivesNonNegativeDeltas(body, lo, hi, env.parsers);
    NegatedBarsBelowAxis(f);
  }

  /** The third trace of a drawn usage chart is the export trace of the
      normalised export history, which has arrived. */
  lemma ExportTraceOfPanel(instance: string, env: Environment, lo: int, hi: int)
    requires UsagePanel(instance, env, lo, hi).Some?
    ensures FrameArrives(env, lo, hi, EntitiesOf(instance).gridExport)
    ensures var c := UsagePanel(instance, env, lo, hi).value;
            var body := Fetched(env, lo, hi, EntitiesOf(instance).gridExport).value;
            && |c.traces| > 2
            && c.traces[2] == ExportTrace(Normalize(body, lo, hi, env.parsers).value)
  {
    UsagePanelChart(instance, env, lo, hi);
  }

  /** The same instance and dates always show the same panel, whatever the
      other instances' environments are. */
  lemma PanelsIndependent(envs1: string -> Environment, envs2: string -> Environment,
                          startDay: int, endDay: int, i: int)
    requires 0 <= i < |Instances| && envs1(Instances[i]) == envs2(Instances[i])
    ensures DashboardPanels(envs1, startDay, endDay)[i] == DashboardPanels(envs2, startDay, endDay)[i]
  {
  }
}

=== FILE: history.dfy ===
/** The history normaliser, `PlotPV.process_pv_data` in ui.py.

    It turns one entity's list of state-change records, as the Home Assistant
    history endpoint returns them, into a frame of hourly energy deltas:
    keep the records that carry a timestamp and a numeric state, sort them by
    instant keeping one record per instant, clip them to the requested
    window, resample onto hour labels with forward fill, take the first
    difference and drop the undefined rows.

    Instants are whole seconds since the Unix epoch (UTC). The source converts
    every instant to Asia/Jakarta, a fixed offset of seven whole hours; such
    an offset moves neither a window comparison nor an hour boundary (see
    `FloorHourCommutesWithOffset`), so the model keeps UTC seconds and the
    hour labels name the same instants the source's labels do. */
module History {
  import opened Wrappers
  import opened Ordering

  const HourSeconds: int := 3600

  /** Offset of Asia/Jakarta from UTC, in seconds. */
  const JakartaOffset: int := 7 * HourSeconds

  /** One state-change record: the three JSON fields the normaliser reads.
      A field the JSON object lacks is `None`. */
  datatype Record = Record(lastUpdated: Option<string>, lastChanged: Option<string>, state: Option<string>)

  /** The history endpoint's JSON body: one list of records per entity. */
  type HistoryBody = seq<seq<Record>>

  /** The two library parsers the normaliser relies on, left opaque:
      `pd.to_datetime(...)` followed by the zone conversion (an instant, or
      `None` when it raises), and `float(...)` (`None` when it raises). */
  datatype Parsers = Parsers(instant: string -> Option<int>, number: string -> Option<real>)

  /** A valid reading of the cumulative counter at an instant. */
  datatype Sample = Sample(t: int, v: real)

  function Instant(s: Sample): int { s.t }

  /** One row of a frame: an hour label and its value, `None` standing for a
      NaN cell. */
  datatype Row = Row(hour: int, value: Option<real>)

  type Frame = seq<Row>

  function Hour(r: Row): int { r.hour }

  // ---------------------------------------------------------------------
  // Record validation
  // ---------------------------------------------------------------------

  /** Python truthiness of an optional string field: present and non-empty. */
  predicate Truthy(f: Option<string>)
  {
    f.Some? && |f.value| > 0
  }

  /** `entry.get('last_updated') or entry.get('last_changed')`, with a falsy
      result collapsed to `None` (the caller rejects both alike). */
  function TimestampField(rec: Record): (r: Option<string>)
    ensures Truthy(rec.lastUpdated) ==> r == rec.lastUpdated
    ensures !Truthy(rec.lastUpdated) && Truthy(rec.lastChanged) ==> r == rec.lastChanged
    ensures !Truthy(rec.lastUpdated) && !Truthy(rec.lastChanged) ==> r.None?
  {
    if Truthy(rec.lastUpdated) then rec.lastUpdated
    else if Truthy(rec.lastChanged) then rec.lastChanged
    else None
  }

  /** The sample a record contributes, if any: it needs a timestamp, a
      non-empty state, and both must parse. */
  function SampleOf(rec: Record, p: Parsers): (r: Option<Sample>)
    ensures r.Some? <==>
      && TimestampField(rec).Some?
      && Truthy(rec.state)
      && p.instant(TimestampField(rec).value).Some?
      && p.number(rec.state.value).Some?
    ensures r.Some? ==>
      r.value.t == p.instant(TimestampField(rec).value).value && r.value.v == p.number(rec.state.value).value
  {
    var ts := TimestampField(rec);
    if ts.None? || !Truthy(rec.state) then None
    else
      var t := p.instant(ts.value);
      var v := p.number(rec.state.value);
      if t.None? || v.None? then None else Some(Sample(t.value, v.value))
  }

  /** The samples of the records that are valid, in input order. */
  function Extract(entries: seq<Record>, p: Parsers): (r: seq<Sample>)
    ensures |r| <= |entries|
  {
    if |entries| == 0 then []
    else
      Extract(entries[..|entries| - 1], p)
        + (match SampleOf(entries[|entries| - 1], p) case Some(s) => [s] case None => [])
  }

  /** Every extracted sample comes from a valid record, and every valid
      record contributes its sample. */
  lemma {:induction false} ExtractSources(entries: seq<Record>, p: Parsers, s: Sample)
    ensures s in Extract(entries, p) <==> exists i :: 0 <= i < |entries| && SampleOf(entries[i], p) == Some(s)
    decreases |entries|
  {
    if |entries| > 0 {
      var init := entries[..|entries| - 1];
      ExtractSources(init, p, s);
      if exists i :: 0 <= i < |init| && SampleOf(init[i], p) == Some(s) {
        var i :| 0 <= i < |init| && SampleOf(init[i], p) == Some(s);
        assert entries[i] == init[i];
      }
      if exists i :: 0 <= i < |entries| && SampleOf(entries[i], p) == Some(s) {
        var i :| 0 <= i < |entries| && SampleOf(entries[i], p) == Some(s);
        if i < |entries| - 1 {
          assert init[i] == entries[i];
        }
      }
    }
  }

  /** Validation is record by record: the valid samples of a concatenation
      are the valid samples of its parts. */
  lemma {:induction false} ExtractAppend(a: seq<Record>, b: seq<Record>, p: Parsers)
    ensures Extract(a + b, p) == Extract(a, p) + Extract(b, p)
    decreases |b|
  {
    if |b| == 0 {
      assert a + b == a;
    } else {
      var b' := b[..|b| - 1];
      assert (a + b)[..|a + b| - 1] == a + b';
      assert (a + b)[|a + b| - 1] == b[|b| - 1];
      ExtractAppend(a, b', p);
    }
  }

  /** A record without a usable timestamp or numeric state is skipped on its
      own: removing it changes nothing, wherever it sits. */
  lemma BadRecordSkipped(a: seq<Record>, bad: Record, b: seq<Record>, p: Parsers)
    requires SampleOf(bad, p).None?
    ensures Extract(a + [bad] + b, p) == Extract(a + b, p)
  {
    assert [bad][..0] == [];
    assert Extract([bad], p) == [];
    ExtractAppend(a + [bad], b, p);
    ExtractAppend(a, [bad], p);
    ExtractAppend(a, b, p);
  }

  // ---------------------------------------------------------------------
  // Window clipping
  // ---------------------------------------------------------------------

  /** The samples whose instant lies in the inclusive window `[lo, hi]`, in order. */
  function Clip(xs: seq<Sample>, lo: int, hi: int): (r: seq<Sample>)
    ensures forall s :: s in r <==> s in xs && lo <= s.t <= hi
    ensures StrictlyIncreasing(xs, Instant) ==> StrictlyIncreasing(r, Instant)
  {
    if |xs| == 0 then []
    else
      var rest := Clip(xs[1..], lo, hi);
      ClipStep(xs, rest, lo, hi);
      if lo <= xs[0].t <= hi then [xs[0]] + rest else rest
  }

  /** One step of `Clip`: deciding the head and keeping the clipped tail. */
  lemma ClipStep(xs: seq<Sample>, rest: seq<Sample>, lo: int, hi: int)
    requires |xs| > 0
    requires forall s :: s in rest <==> s in xs[1..] && lo <= s.t <= hi
    requires StrictlyIncreasing(xs[1..], Instant) ==> StrictlyIncreasing(rest, Instant)
    ensures var r := if lo <= xs[0].t <= hi then [xs[0]] + rest else rest;
      && (forall s :: s in r <==> s in xs && lo <= s.t <= hi)
      && (StrictlyIncreasing(xs, Instant) ==> StrictlyIncreasing(r, Instant))
  {
    assert xs == [xs[0]] + xs[1..];
    if StrictlyIncreasing(xs, Instant) {
      TailStrictlyIncreasing(xs, Instant);
      HeadBelowRest(xs, rest);
      ConsIncreasing(xs[0], rest);
    }
  }

  /** The head of a sorted sequence precedes everything drawn from its tail. */
  lemma HeadBelowRest(xs: seq<Sample>, rest: seq<Sample>)
    requires |xs| > 0 && StrictlyIncreasing(xs, Instant)
    requires forall s :: s in rest ==> s in xs[1..]
    ensures forall s :: s in rest ==> xs[0].t < s.t
  {
    forall s | s in rest ensures xs[0].t < s.t {
      var i :| 0 <= i < |xs[1..]| && xs[1..][i] == s;
      assert xs[i + 1] == s;
    }
  }

  lemma ConsIncreasing(a: Sample, rest: seq<Sample>)
    requires StrictlyIncreasing(rest, Instant)
    requires forall s :: s in rest ==> a.t < s.t
    ensures StrictlyIncreasing([a] + rest, Instant)
  {
    var r := [a] + rest;
    forall i, j | 0 <= i < j < |r| ensures r[i].t < r[j].t {
      if i == 0 {
        assert r[j] == rest[j - 1] && r[j] in rest;
      } else {
        assert r[i] == rest[i - 1] && r[j] == rest[j - 1];
      }
    }
  }

  lemma {:induction false} ClipAppend(a: seq<Sample>, b: seq<Sample>, lo: int, hi: int)
    ensures Clip(a + b, lo, hi) == Clip(a, lo, hi) + Clip(b, lo, hi)
    decreases |a|
  {
    if |a| == 0 {
      assert a + b == b;
    } else {
      assert (a + b)[0] == a[0];
      assert (a + b)[1..] == a[1..] + b;
      ClipAppend(a[1..], b, lo, hi);
    }
  }

  /** The samples that survive sorting, de-duplication and clipping: sorted
      by instant, one per instant, each in the window. */
  function Kept(xs: seq<Sample>, lo: int, hi: int): (r: seq<Sample>)
    ensures StrictlyIncreasing(r, Instant)
    ensures forall s :: s in r ==> s in xs && lo <= s.t <= hi
  {
    Clip(SortUnique(xs, Instant), lo, hi)
  }

  /** Every valid instant inside the window is represented among the kept samples. */
  lemma KeptCoversWindow(xs: seq<Sample>, lo: int, hi: int, i: int)
    requires 0 <= i < |xs| && lo <= xs[i].t <= hi
    ensures HasKey(Kept(xs, lo, hi), xs[i].t, Instant)
  {
    var sorted := SortUnique(xs, Instant);
    assert HasKey(sorted, Instant(xs[i]), Instant);
    ClipKeepsKey(sorted, lo, hi, xs[i].t);
  }

  /** A key inside the window survives clipping. */
  lemma ClipKeepsKey(xs: seq<Sample>, lo: int, hi: int, k: int)
    requires HasKey(xs, k, Instant) && lo <= k <= hi
    ensures HasKey(Clip(xs, lo, hi), k, Instant)
  {
    var m :| 0 <= m < |xs| && Instant(xs[m]) == k;
    var r := Clip(xs, lo, hi);
    assert xs[m] in r;
    var n :| 0 <= n < |r| && r[n] == xs[m];
  }

  // ---------------------------------------------------------------------
  // Hourly resampling with forward fill, then first difference
  // ---------------------------------------------------------------------

  predicate OnHour(h: int)
  {
    h % HourSeconds == 0
  }

  /** The hour label an instant falls in: the latest exact hour at or before it. */
  function FloorHour(t: int): (r: int)
    ensures OnHour(r) && r <= t < r + HourSeconds
  {
    t - t % HourSeconds
  }

  /** The `i`-th hour label counted from `base`. */
  function Label(base: int, i: int): int
  {
    base + i * HourSeconds
  }

  /** Index of the last sample (in sequence order) at or before instant `h`,
      or -1 when every sample is later. */
  function LastAtOrBefore(xs: seq<Sample>, h: int): (i: int)
    ensures -1 <= i < |xs|
    ensures i >= 0 ==> xs[i].t <= h
    ensures forall j :: i < j < |xs| ==> xs[j].t > h
  {
    if |xs| == 0 then -1
    else if xs[|xs| - 1].t <= h then |xs| - 1
    else LastAtOrBefore(xs[..|xs| - 1], h)
  }

  /** The forward-filled reading at label `h`: the last reading at or before
      `h`, undefined when there is none. */
  function Ffill(xs: seq<Sample>, h: int): (r: Option<real>)
    ensures r.Some? <==> exists j :: 0 <= j < |xs| && xs[j].t <= h
  {
    var i := LastAtOrBefore(xs, h);
    if i < 0 then None else Some(xs[i].v)
  }

  /** A frame row that is the difference of the forward-filled readings at
      its own label and at the label one hour earlier, both defined. */
  ghost predicate IsDeltaRow(kept: seq<Sample>, row: Row)
  {
    && Ffill(kept, row.hour).Some?
    && Ffill(kept, row.hour - HourSeconds).Some?
    && row.value == Some(Ffill(kept, row.hour).value - Ffill(kept, row.hour - HourSeconds).value)
  }

  /** Reference definition of `resample('H').ffill().diff().dropna()` on the
      sorted samples `kept`: the labels run from the hour of the first sample
      to the hour of the last; a row exists for exactly those labels after
      the first whose previous label has a forward-filled reading, in
      ascending order, each holding the hour-on-hour difference. */
  ghost predicate IsHourlyDeltaFrame(kept: seq<Sample>, f: Frame)
  {
    && StrictlyIncreasing(f, Hour)
    && (forall j :: 0 <= j < |f| ==> OnHour(f[j].hour) && IsDeltaRow(kept, f[j]))
    && (|kept| == 0 ==> |f| == 0)
    && (|kept| > 0 ==>
          && (forall j :: 0 <= j < |f| ==>
                FloorHour(kept[0].t) < f[j].hour <= FloorHour(kept[|kept| - 1].t))
          && (forall h :: OnHour(h) && FloorHour(kept[0].t) < h <= FloorHour(kept[|kept| - 1].t)
                          && Ffill(kept, h - HourSeconds).Some?
                          ==> exists j :: 0 <= j < |f| && f[j].hour == h))
  }

  /** The rows for labels 1..k counted from `base`. */
  function Rows(kept: seq<Sample>, base: int, k: nat): (f: Frame)
    ensures |f| <= k
  {
    if k == 0 then [] else Rows(kept, base, k - 1) + NewRow(kept, base, k)
  }

  /** The rows for labels 1..k ascend, each holds the delta of its label,
      and each label whose predecessor has a reading has its row. */
  lemma {:induction false} RowsShape(kept: seq<Sample>, base: int, k: nat)
    ensures StrictlyIncreasing(Rows(kept, base, k), Hour)
    ensures forall j :: 0 <= j < |Rows(kept, base, k)| ==> RowAt(kept, base, k, Rows(kept, base, k)[j])
    ensures forall i :: 0 <= i < k && Ffill(kept, Label(base, i)).Some? ==>
      exists j :: 0 <= j < |Rows(kept, base, k)| && Rows(kept, base, k)[j].hour == Label(base, i + 1)
  {
    if k > 0 {
      RowsShape(kept, base, k - 1);
      RowsStep(kept, base, k, Rows(kept, base, k - 1));
    }
  }

  /** Row `row` belongs to one of the labels 1..k from `base` and holds its delta. */
  ghost predicate RowAt(kept: seq<Sample>, base: int, k: int, row: Row)
  {
    exists i :: 1 <= i <= k && row.hour == Label(base, i) && IsDeltaRow(kept, row)
  }

  /** The row label `k` contributes: none when either forward-filled reading is missing. */
  function NewRow(kept: seq<Sample>, base: int, k: int): Frame
  {
    var cur := Ffill(kept, Label(base, k));
    var before := Ffill(kept, Label(base, k - 1));
    if cur.Some? && before.Some? then [Row(Label(base, k), Some(cur.value - before.value))] else []
  }

  /** One step of `Rows`: appending the row of label `k` to the rows of labels 1..k-1. */
  lemma RowsStep(kept: seq<Sample>, base: int, k: int, prev: Frame)
    requires k >= 1
    requires StrictlyIncreasing(prev, Hour)
    requires forall j :: 0 <= j < |prev| ==> RowAt(kept, base, k - 1, prev[j])
    requires forall i :: 0 <= i < k - 1 && Ffill(kept, Label(base, i)).Some? ==>
      exists j :: 0 <= j < |prev| && prev[j].hour == Label(base, i + 1)
    ensures var f := prev + NewRow(kept, base, k);
      && StrictlyIncreasing(f, Hour)
      && (forall j :: 0 <= j < |f| ==> RowAt(kept, base, k, f[j]))
      && (forall i :: 0 <= i < k && Ffill(kept, Label(base, i)).Some? ==>
            exists j :: 0 <= j < |f| && f[j].hour == Label(base, i + 1))
  {
    RowsStepOrder(kept, base, k, prev);
    RowsStepComplete(kept, base, k, prev);
  }

  lemma RowsStepOrder(kept: seq<Sample>, base: int, k: int, prev: Frame)
    requires k >= 1
    requires StrictlyIncreasing(prev, Hour)
    requires forall j :: 0 <= j < |prev| ==> RowAt(kept, base, k - 1, prev[j])
    ensures var f := prev + NewRow(kept, base, k);
      && StrictlyIncreasing(f, Hour)
      && (forall j :: 0 <= j < |f| ==> RowAt(kept, base, k, f[j]))
  {
    var tail := NewRow(kept, base, k);
    PrevBelowLabel(kept, base, k, prev);
    NewRowAt(kept, base, k);
    AppendAbove(prev, tail, Label(base, k));
    var f := prev + tail;
    forall j | 0 <= j < |f| ensures RowAt(kept, base, k, f[j]) {
      if j < |prev| { assert f[j] == prev[j]; } else { assert f[j] == tail[0]; }
    }
  }

  /** Rows up to label k - 1 lie below label k and are rows up to label k. */
  lemma PrevBelowLabel(kept: seq<Sample>, base: int, k: int, prev: Frame)
    requires forall j :: 0 <= j < |prev| ==> RowAt(kept, base, k - 1, prev[j])
    ensures forall j :: 0 <= j < |prev| ==> prev[j].hour < Label(base, k) && RowAt(kept, base, k, prev[j])
  {
    forall j | 0 <= j < |prev| ensures prev[j].hour < Label(base, k) && RowAt(kept, base, k, prev[j]) {
      assert RowAt(kept, base, k - 1, prev[j]);
      var i :| 1 <= i <= k - 1 && prev[j].hour == Label(base, i) && IsDeltaRow(kept, prev[j]);
    }
  }

  /** The row for label k, if any, is a delta row at that label. */
  lemma NewRowAt(kept: seq<Sample>, base: int, k: int)
    requires k >= 1
    ensures |NewRow(kept, base, k)| <= 1
    ensures |NewRow(kept, base, k)| == 1 ==>
              NewRow(kept, base, k)[0].hour == Label(base, k) && RowAt(kept, base, k, NewRow(kept, base, k)[0])
  {
    var tail := NewRow(kept, base, k);
    if |tail| == 1 {
      assert Label(base, k - 1) == Label(base, k) - HourSeconds;
      assert IsDeltaRow(kept, tail[0]);
    }
  }

  /** Appending at most one row above every row keeps the hours ascending. */
  lemma AppendAbove(prev: Frame, tail: Frame, h: int)
    requires StrictlyIncreasing(prev, Hour)
    requires forall j :: 0 <= j < |prev| ==> prev[j].hour < h
    requires |tail| <= 1 && (|tail| == 1 ==> tail[0].hour == h)
    ensures StrictlyIncreasing(prev + tail, Hour)
  {
    var f := prev + tail;
    forall i, j | 0 <= i < j < |f| ensures Hour(f[i]) < Hour(f[j]) {
      if j < |prev| {
        assert f[i] == prev[i] && f[j] == prev[j];
      } else {
        assert f[i] == prev[i] && f[j] == tail[0];
      }
    }
  }

  lemma RowsStepComplete(kept: seq<Sample>, base: int, k: int, prev: Frame)
    requires k >= 1
    requires forall i :: 0 <= i < k - 1 && Ffill(kept, Label(base, i)).Some? ==>
      exists j :: 0 <= j < |prev| && prev[j].hour == Label(base, i + 1)
    ensures var f := prev + NewRow(kept, base, k);
      forall i :: 0 <= i < k && Ffill(kept, Label(base, i)).Some? ==>
        exists j :: 0 <= j < |f| && f[j].hour == Label(base, i + 1)
  {
    var f := prev + NewRow(kept, base, k);
    forall i | 0 <= i < k && Ffill(kept, Label(base, i)).Some?
      ensures exists j :: 0 <= j < |f| && f[j].hour == Label(base, i + 1)
    {
      if i < k - 1 {
        var j :| 0 <= j < |prev| && prev[j].hour == Label(base, i + 1);
        assert f[j] == prev[j];
      } else {
        FfillLater(kept, Label(base, k - 1), Label(base, k));
        assert f[|prev|].hour == Label(base, k);
      }
    }
  }

  /** A forward-filled reading stays defined at every later label. */
  lemma FfillLater(xs: seq<Sample>, h: int, h': int)
    requires h <= h' && Ffill(xs, h).Some?
    ensures Ffill(xs, h').Some?
  {
    var j :| 0 <= j < |xs| && xs[j].t <= h;
    assert xs[j].t <= h';
  }

  /** Two exact hours are a whole number of hours apart. */
  lemma OnHourDistance(a: int, b: int)
    requires OnHour(a) && OnHour(b) && a <= b
    ensures (b - a) % HourSeconds == 0
    ensures Label(a, (b - a) / HourSeconds) == b
  {
    var qa := a / HourSeconds;
    var qb := b / HourSeconds;
    assert a == HourSeconds * qa;
    assert b == HourSeconds * qb;
    assert b - a == HourSeconds * (qb - qa);
  }

  /** Labels counted from an exact hour are exact hours. */
  lemma LabelOnHour(base: int, i: int)
    requires OnHour(base)
    ensures OnHour(Label(base, i))
  {
    var q := base / HourSeconds;
    assert base == HourSeconds * q;
    assert Label(base, i) == HourSeconds * (q + i);
  }

  /** Number of hourly labels after the first one, from the first sample's hour to the last's. */
  function SpanHours(kept: seq<Sample>): (n: nat)
    requires StrictlyIncreasing(kept, Instant) && |kept| > 0
    ensures FloorHour(kept[0].t) + n * HourSeconds == FloorHour(kept[|kept| - 1].t)
  {
    var first := FloorHour(kept[0].t);
    var last := FloorHour(kept[|kept| - 1].t);
    assert first <= last by {
      if |kept| > 1 { assert kept[0].t < kept[|kept| - 1].t; }
    }
    OnHourDistance(first, last);
    (last - first) / HourSeconds
  }

  /** The resample-ffill-diff-dropna step on sorted unique samples. */
  function HourlyDeltas(kept: seq<Sample>): (f: Frame)
    requires StrictlyIncreasing(kept, Instant)
  {
    if |kept| == 0 then []
    else Rows(kept, FloorHour(kept[0].t), SpanHours(kept))
  }

  /** `HourlyDeltas` meets its reference definition. */
  lemma HourlyDeltasIsReference(kept: seq<Sample>)
    requires StrictlyIncreasing(kept, Instant)
    ensures IsHourlyDeltaFrame(kept, HourlyDeltas(kept))
  {
    if |kept| > 0 {
      SpanIsReference(kept, FloorHour(kept[0].t), FloorHour(kept[|kept| - 1].t), SpanHours(kept));
    }
  }

  /** The span frame between the first and last sample's hours meets the reference definition. */
  lemma SpanIsReference(kept: seq<Sample>, first: int, last: int, n: nat)
    requires |kept| > 0 && first == FloorHour(kept[0].t) && last == FloorHour(kept[|kept| - 1].t)
    requires first + n * HourSeconds == last
    ensures IsHourlyDeltaFrame(kept, Rows(kept, first, n))
  {
    SpanCount(first, last, n);
    var f := Rows(kept, first, n);
    RowsSorted(kept, first, n);
    RowsLabelsInSpan(kept, first, last, f);
    RowsCoverSpan(kept, first, last, f);
  }

  lemma RowsSorted(kept: seq<Sample>, base: int, k: nat)
    ensures StrictlyIncreasing(Rows(kept, base, k), Hour)
  {
    RowsShape(kept, base, k);
  }

  /** A whole number of hours between two labels is their quotient. */
  lemma SpanCount(first: int, last: int, n: nat)
    requires first + n * HourSeconds == last
    ensures n == (last - first) / HourSeconds
  {
  }

  /** Every row of the span's frame sits on an hour strictly after the first label. */
  lemma RowsLabelsInSpan(kept: seq<Sample>, first: int, last: int, f: Frame)
    requires OnHour(first) && OnHour(last) && first <= last
    requires f == Rows(kept, first, (last - first) / HourSeconds)
    ensures forall j :: 0 <= j < |f| ==> OnHour(f[j].hour) && IsDeltaRow(kept, f[j]) && first < f[j].hour <= last
  {
    OnHourDistance(first, last);
    var k := (last - first) / HourSeconds;
    RowsShape(kept, first, k);
    forall j | 0 <= j < |f| ensures OnHour(f[j].hour) && IsDeltaRow(kept, f[j]) && first < f[j].hour <= last {
      assert RowAt(kept, first, k, f[j]);
      var i :| 1 <= i <= k && f[j].hour == Label(first, i) && IsDeltaRow(kept, f[j]);
      LabelOnHour(first, i);
      assert Label(first, i) <= Label(first, k);
    }
  }

  /** Every label after the first whose predecessor has a reading has its row. */
  lemma RowsCoverSpan(kept: seq<Sample>, first: int, last: int, f: Frame)
    requires OnHour(first) && OnHour(last) && first <= last
    requires f == Rows(kept, first, (last - first) / HourSeconds)
    ensures forall h :: OnHour(h) && first < h <= last && Ffill(kept, h - HourSeconds).Some?
                        ==> exists j :: 0 <= j < |f| && f[j].hour == h
  {
    var k := (last - first) / HourSeconds;
    OnHourDistance(first, last);
    RowsShape(kept, first, k);
    forall h | OnHour(h) && first < h <= last && Ffill(kept, h - HourSeconds).Some?
      ensures exists j :: 0 <= j < |f| && f[j].hour == h
    {
      var i := SpanLabelIndex(first, last, k, h);
      assert Ffill(kept, Label(first, i)).Some?;
    }
  }

  /** An exact hour strictly inside the span is label `i + 1` for some `i` below `k`. */
  lemma SpanLabelIndex(first: int, last: int, k: nat, h: int) returns (i: int)
    requires OnHour(first) && OnHour(h) && first < h <= last && Label(first, k) == last
    ensures 0 <= i < k && Label(first, i) == h - HourSeconds && Label(first, i + 1) == h
  {
    OnHourDistance(first, h);
    i := (h - first) / HourSeconds - 1;
  }

  // ---------------------------------------------------------------------
  // The normaliser
  // ---------------------------------------------------------------------

  /** `process_pv_data(raw_data, requested_start, requested_end)`. Only the
      first entity's records are read. `None` is the "no data" answer; a
      frame, possibly empty, is returned as soon as one record is valid. */
  function Normalize(raw: HistoryBody, lo: int, hi: int, p: Parsers): (r: Option<Frame>)
    ensures r.None? <==> |raw| == 0 || |Extract(raw[0], p)| == 0
    ensures r.Some? ==> IsHourlyDeltaFrame(Kept(Extract(raw[0], p), lo, hi), r.value)
    ensures r.Some? ==> forall j :: 0 <= j < |r.value| ==> r.value[j].value.Some?
  {
    if |raw| == 0 then None
    else
      var xs := Extract(raw[0], p);
      if |xs| == 0 then None
      else
        HourlyDeltasIsReference(Kept(xs, lo, hi));
        Some(HourlyDeltas(Kept(xs, lo, hi)))
  }
}

=== FILE: history_laws.dfy ===
/** Properties of the history normaliser: which samples can influence the
    frame, what the frame's rows look like, how many there are, and the
    sign of the deltas. */
module HistoryLaws {
  import opened Wrappers
  import opened Ordering
  import opened History

  /** Hour boundaries are the same instants in UTC and in Asia/Jakarta, so
      labelling in UTC seconds yields the source's local hour labels. */
  lemma FloorHourCommutesWithOffset(t: int)
    ensures FloorHour(t + JakartaOffset) == FloorHour(t) + JakartaOffset
  {
    var q := t / HourSeconds;
    assert t == HourSeconds * q + t % HourSeconds;
    assert t + JakartaOffset == HourSeconds * (q + 7) + t % HourSeconds;
  }

  // ---------------------------------------------------------------------
  // Only the samples inside the window matter
  // ---------------------------------------------------------------------

  /** `Clip` decides the head of a sequence on its own. */
  lemma ClipCons(a: Sample, s: seq<Sample>, lo: int, hi: int)
    ensures Clip([a] + s, lo, hi) == (if lo <= a.t <= hi then [a] else []) + Clip(s, lo, hi)
  {
    assert ([a] + s)[0] == a && ([a] + s)[1..] == s;
  }

  /** A sample earlier than the head of a sorted sequence is inserted in front. */
  lemma InsertInFront(c: seq<Sample>, x: Sample)
    requires StrictlyIncreasing(c, Instant)
    requires |c| == 0 || x.t < c[0].t
    ensures Insert(c, x, Instant) == [x] + c
  {
  }

  /** Clipping keeps no sample earlier than the head of a sorted sequence. */
  lemma ClipStartsAfterHead(s: seq<Sample>, lo: int, hi: int)
    requires |s| > 0 && StrictlyIncreasing(s, Instant)
    requires |Clip(s, lo, hi)| > 0
    ensures s[0].t <= Clip(s, lo, hi)[0].t
  {
    var c := Clip(s, lo, hi);
    assert c[0] in c;
    var m :| 0 <= m < |s| && s[m] == c[0];
    assert m == 0 || Instant(s[0]) < Instant(s[m]);
  }

  /** The clipped insertion `ClipInsert` promises. */
  function ClippedInsert(s: seq<Sample>, x: Sample, lo: int, hi: int): seq<Sample>
    requires StrictlyIncreasing(s, Instant)
  {
    if lo <= x.t <= hi then Insert(Clip(s, lo, hi), x, Instant) else Clip(s, lo, hi)
  }

  /** Clipping a sorted sequence after inserting a sample is inserting into
      the clipped sequence, or nothing when the sample is outside the window. */
  lemma {:induction false} ClipInsert(s: seq<Sample>, x: Sample, lo: int, hi: int)
    requires StrictlyIncreasing(s, Instant)
    ensures Clip(Insert(s, x, Instant), lo, hi) == ClippedInsert(s, x, lo, hi)
    decreases |s|
  {
    if |s| == 0 {
      ClipCons(x, [], lo, hi);
      assert [x] + [] == [x];
    } else if x.t < s[0].t {
      ClipInsertBefore(s, x, lo, hi);
    } else if x.t == s[0].t {
      ClipInsertSame(s, x, lo, hi);
    } else {
      TailStrictlyIncreasing(s, Instant);
      ClipInsert(s[1..], x, lo, hi);
      ClipInsertAfter(s, x, lo, hi);
    }
  }

  lemma ClipInsertBefore(s: seq<Sample>, x: Sample, lo: int, hi: int)
    requires StrictlyIncreasing(s, Instant)
    requires |s| > 0 && x.t < s[0].t
    ensures Clip(Insert(s, x, Instant), lo, hi) == ClippedInsert(s, x, lo, hi)
  {
    var c := Clip(s, lo, hi);
    assert Insert(s, x, Instant) == [x] + s;
    ClipCons(x, s, lo, hi);
    if lo <= x.t <= hi {
      if |c| > 0 { ClipStartsAfterHead(s, lo, hi); }
      InsertInFront(c, x);
    }
  }

  lemma ClipInsertSame(s: seq<Sample>, x: Sample, lo: int, hi: int)
    requires StrictlyIncreasing(s, Instant)
    requires |s| > 0 && x.t == s[0].t
    ensures Clip(Insert(s, x, Instant), lo, hi) == ClippedInsert(s, x, lo, hi)
  {
    var c := Clip(s, lo, hi);
    assert Insert(s, x, Instant) == s;
    if lo <= x.t <= hi {
      assert s == [s[0]] + s[1..];
      ClipCons(s[0], s[1..], lo, hi);
      assert c[0] == s[0];
      assert Insert(c, x, Instant) == c;
    }
  }

  lemma ClipInsertAfter(s: seq<Sample>, x: Sample, lo: int, hi: int)
    requires StrictlyIncreasing(s, Instant)
    requires |s| > 0 && s[0].t < x.t
    requires StrictlyIncreasing(s[1..], Instant)
    requires Clip(Insert(s[1..], x, Instant), lo, hi) == ClippedInsert(s[1..], x, lo, hi)
    ensures Clip(Insert(s, x, Instant), lo, hi) == ClippedInsert(s, x, lo, hi)
  {
    var ins := Insert(s[1..], x, Instant);
    InsertBehindHead(s, x);
    ClipCons(s[0], ins, lo, hi);
    var c' := Clip(s[1..], lo, hi);
    ClipHead(s, lo, hi);
    if lo <= x.t <= hi && lo <= s[0].t <= hi {
      InsertAfterHead(s[0], c', x);
    }
  }

  /** Inserting behind the head leaves the head in place. */
  lemma InsertBehindHead(s: seq<Sample>, x: Sample)
    requires |s| > 0 && s[0].t < x.t
    requires StrictlyIncreasing(s, Instant) && StrictlyIncreasing(s[1..], Instant)
    ensures Insert(s, x, Instant) == [s[0]] + Insert(s[1..], x, Instant)
  {
  }

  /** `Clip` decides the head on its own. */
  lemma ClipHead(s: seq<Sample>, lo: int, hi: int)
    requires |s| > 0
    ensures Clip(s, lo, hi) == (if lo <= s[0].t <= hi then [s[0]] else []) + Clip(s[1..], lo, hi)
  {
    if !(lo <= s[0].t <= hi) {
      assert [] + Clip(s[1..], lo, hi) == Clip(s[1..], lo, hi);
    }
  }

  /** A sample later than the head of a sorted sequence is inserted behind it. */
  lemma InsertAfterHead(a: Sample, c: seq<Sample>, x: Sample)
    requires StrictlyIncreasing([a] + c, Instant) && StrictlyIncreasing(c, Instant)
    requires a.t < x.t
    ensures Insert([a] + c, x, Instant) == [a] + Insert(c, x, Instant)
  {
    var r := [a] + c;
    assert r[0] == a && r[1..] == c;
  }

  /** `Clip` decides the last sample of a sequence on its own. */
  lemma ClipSnoc(c: seq<Sample>, x: Sample, lo: int, hi: int)
    ensures Clip(c + [x], lo, hi) == Clip(c, lo, hi) + (if lo <= x.t <= hi then [x] else [])
  {
    ClipAppend(c, [x], lo, hi);
    ClipCons(x, [], lo, hi);
    assert [x] + [] == [x];
  }

  /** Clipping commutes with sorting and de-duplication. */
  lemma {:induction false} ClipSortUniqueCommute(xs: seq<Sample>, lo: int, hi: int)
    ensures Clip(SortUnique(xs, Instant), lo, hi) == SortUnique(Clip(xs, lo, hi), Instant)
    decreases |xs|
  {
    if |xs| > 0 {
      ClipSortUniqueCommute(xs[..|xs| - 1], lo, hi);
      ClipSortUniqueSnoc(xs, lo, hi);
    }
  }

  lemma ClipSortUniqueSnoc(xs: seq<Sample>, lo: int, hi: int)
    requires |xs| > 0
    requires Clip(SortUnique(xs[..|xs| - 1], Instant), lo, hi) == SortUnique(Clip(xs[..|xs| - 1], lo, hi), Instant)
    ensures Clip(SortUnique(xs, Instant), lo, hi) == SortUnique(Clip(xs, lo, hi), Instant)
  {
    var init := xs[..|xs| - 1];
    var x := xs[|xs| - 1];
    SortUniqueLast(xs);
    ClipLast(xs, lo, hi);
    ClipInsert(SortUnique(init, Instant), x, lo, hi);
    var c := Clip(init, lo, hi);
    if lo <= x.t <= hi {
      SortUniqueSnoc(c, x, Instant);
    } else {
      assert c + [] == c;
    }
  }

  /** `SortUnique` inserts the last element into the result for the others. */
  lemma SortUniqueLast(xs: seq<Sample>)
    requires |xs| > 0
    ensures SortUnique(xs, Instant) == Insert(SortUnique(xs[..|xs| - 1], Instant), xs[|xs| - 1], Instant)
  {
  }

  /** `Clip` decides the last element on its own. */
  lemma ClipLast(xs: seq<Sample>, lo: int, hi: int)
    requires |xs| > 0
    ensures Clip(xs, lo, hi) == Clip(xs[..|xs| - 1], lo, hi)
                                + (if lo <= xs[|xs| - 1].t <= hi then [xs[|xs| - 1]] else [])
  {
    var init := xs[..|xs| - 1];
    var x := xs[|xs| - 1];
    assert xs == init + [x];
    ClipSnoc(init, x, lo, hi);
  }

  /** The frame depends on the records only through whether any of them is
      valid and through the valid samples inside the window, in input order. */
  lemma OnlyWindowSamplesMatter(raw1: HistoryBody, raw2: HistoryBody, lo: int, hi: int, p: Parsers)
    requires |raw1| > 0 && |Extract(raw1[0], p)| > 0
    requires |raw2| > 0 && |Extract(raw2[0], p)| > 0
    requires Clip(Extract(raw1[0], p), lo, hi) == Clip(Extract(raw2[0], p), lo, hi)
    ensures Normalize(raw1, lo, hi, p) == Normalize(raw2, lo, hi, p)
  {
    ClipSortUniqueCommute(Extract(raw1[0], p), lo, hi);
    ClipSortUniqueCommute(Extract(raw2[0], p), lo, hi);
  }

  /** A valid record whose instant lies outside the window leaves the frame
      unchanged, as long as the history already held a valid record. */
  lemma OutOfWindowRecordIgnored(entries: seq<Record>, rec: Record, rest: HistoryBody, lo: int, hi: int, p: Parsers)
    requires |Extract(entries, p)| > 0
    requires SampleOf(rec, p).Some? && !(lo <= SampleOf(rec, p).value.t <= hi)
    ensures Normalize([entries + [rec]] + rest, lo, hi, p) == Normalize([entries] + rest, lo, hi, p)
  {
    var x := SampleOf(rec, p).value;
    assert [rec][..0] == [];
    assert Extract([rec], p) == [x];
    ExtractAppend(entries, [rec], p);
    ClipAppend(Extract(entries, p), [x], lo, hi);
    assert [x][1..] == [];
    assert Clip([x], lo, hi) == [];
    OnlyWindowSamplesMatter([entries + [rec]] + rest, [entries] + rest, lo, hi, p);
  }

  /** Without an earlier valid record the same append does change the answer:
      a history with no valid record is "no data", and one valid record
      outside the window turns it into an empty frame. */
  lemma FirstValidRecordOutsideWindow(entries: seq<Record>, rec: Record, rest: HistoryBody, lo: int, hi: int, p: Parsers)
    requires |Extract(entries, p)| == 0
    requires SampleOf(rec, p).Some? && !(lo <= SampleOf(rec, p).value.t <= hi)
    ensures Normalize([entries] + rest, lo, hi, p) == None
    ensures Normalize([entries + [rec]] + rest, lo, hi, p) == Some([])
  {
    var x := SampleOf(rec, p).value;
    OnlyValidRecord(entries, rec, p);
    assert ([entries + [rec]] + rest)[0] == entries + [rec];
    assert ([entries] + rest)[0] == entries;
    LoneSampleOutsideWindow(x, lo, hi);
  }

  /** Appending a valid record to a list with none gives its one sample. */
  lemma OnlyValidRecord(entries: seq<Record>, rec: Record, p: Parsers)
    requires |Extract(entries, p)| == 0 && SampleOf(rec, p).Some?
    ensures Extract(entries + [rec], p) == [SampleOf(rec, p).value]
  {
    assert [rec][..0] == [];
    assert Extract([rec], p) == [SampleOf(rec, p).value];
    ExtractAppend(entries, [rec], p);
  }

  /** A lone sample outside the window is clipped away, leaving no rows. */
  lemma LoneSampleOutsideWindow(x: Sample, lo: int, hi: int)
    requires !(lo <= x.t <= hi)
    ensures Kept([x], lo, hi) == [] && HourlyDeltas(Kept([x], lo, hi)) == []
  {
    assert SortUnique([x], Instant) == [x];
    assert [x][1..] == [];
    assert Clip([x], lo, hi) == [];
  }

  /** A record the parsers reject leaves the frame unchanged, wherever it sits. */
  lemma InvalidRecordIgnored(a: seq<Record>, bad: Record, b: seq<Record>, rest: HistoryBody, lo: int, hi: int, p: Parsers)
    requires SampleOf(bad, p).None?
    ensures Normalize([a + [bad] + b] + rest, lo, hi, p) == Normalize([a + b] + rest, lo, hi, p)
  {
    BadRecordSkipped(a, bad, b, p);
  }

  // ---------------------------------------------------------------------
  // Sign of the deltas
  // ---------------------------------------------------------------------

  /** Readings never decrease as time advances. */
  predicate NonDecreasingReadings(xs: seq<Sample>)
  {
    forall a, b :: 0 <= a < |xs| && 0 <= b < |xs| && xs[a].t < xs[b].t ==> xs[a].v <= xs[b].v
  }

  /** On a non-decreasing counter the forward-filled reading never decreases. */
  lemma FfillMonotone(kept: seq<Sample>, xs: seq<Sample>, h1: int, h2: int)
    requires StrictlyIncreasing(kept, Instant)
    requires forall s :: s in kept ==> s in xs
    requires NonDecreasingReadings(xs)
    requires h1 <= h2 && Ffill(kept, h1).Some?
    ensures Ffill(kept, h2).Some? && Ffill(kept, h1).value <= Ffill(kept, h2).value
  {
    FfillLater(kept, h1, h2);
    var i1 := LastAtOrBefore(kept, h1);
    var i2 := LastAtOrBefore(kept, h2);
    assert i1 <= i2;
    if i1 < i2 {
      assert kept[i1].t < kept[i2].t;
      assert kept[i1] in xs && kept[i2] in xs;
      var a :| 0 <= a < |xs| && xs[a] == kept[i1];
      var b :| 0 <= b < |xs| && xs[b] == kept[i2];
    }
  }

  /** A counter that never decreases yields no negative hourly delta. */
  lemma NonDecreasingCounterGivesNonNegativeDeltas(raw: HistoryBody, lo: int, hi: int, p: Parsers)
    requires |raw| > 0 && NonDecreasingReadings(Extract(raw[0], p))
    requires Normalize(raw, lo, hi, p).Some?
    ensures forall j :: 0 <= j < |Normalize(raw, lo, hi, p).value| ==>
      Normalize(raw, lo, hi, p).value[j].value.Some? && Normalize(raw, lo, hi, p).value[j].value.value >= 0.0
  {
    var xs := Extract(raw[0], p);
    DeltaFrameNonNegative(Kept(xs, lo, hi), xs, Normalize(raw, lo, hi, p).value);
  }

  lemma DeltaFrameNonNegative(kept: seq<Sample>, xs: seq<Sample>, f: Frame)
    requires StrictlyIncreasing(kept, Instant)
    requires forall s :: s in kept ==> s in xs
    requires NonDecreasingReadings(xs)
    requires IsHourlyDeltaFrame(kept, f)
    ensures forall j :: 0 <= j < |f| ==> f[j].value.Some? && f[j].value.value >= 0.0
  {
    forall j | 0 <= j < |f| ensures f[j].value.Some? && f[j].value.value >= 0.0 {
      DeltaRowNonNegative(kept, xs, f[j]);
    }
  }

  lemma DeltaRowNonNegative(kept: seq<Sample>, xs: seq<Sample>, row: Row)
    requires StrictlyIncreasing(kept, Instant)
    requires forall s :: s in kept ==> s in xs
    requires NonDecreasingReadings(xs)
    requires IsDeltaRow(kept, row)
    ensures row.value.Some? && row.value.value >= 0.0
  {
    FfillMonotone(kept, xs, row.hour - HourSeconds, row.hour);
  }

  /** Deltas are not clamped: a counter that drops by 3 between two exact
      hours shows a delta of -3. */
  lemma CounterResetIsNegative()
    ensures HourlyDeltas([Sample(0, 5.0), Sample(3600, 2.0)]) == [Row(3600, Some(-3.0))]
  {
    CounterResetRows();
    assert FloorHour(0) == 0;
    assert FloorHour(3600) == 3600;
  }

  lemma CounterResetRows()
    ensures Rows([Sample(0, 5.0), Sample(3600, 2.0)], 0, 1) == [Row(3600, Some(-3.0))]
  {
    var kept := [Sample(0, 5.0), Sample(3600, 2.0)];
    assert kept[..1] == [Sample(0, 5.0)];
    assert Ffill(kept, 3600) == Some(2.0);
    assert Ffill(kept, 0) == Some(5.0);
    assert Label(0, 1) == 3600;
    assert Label(0, 0) == 0;
  }

  // ---------------------------------------------------------------------
  // Number of rows
  // ---------------------------------------------------------------------

  /** The number of hour labels from the first to the last kept sample. */
  function Buckets(kept: seq<Sample>): (n: int)
    requires |kept| > 0 && StrictlyIncreasing(kept, Instant)
    ensures n >= 1
  {
    var first := FloorHour(kept[0].t);
    var last := FloorHour(kept[|kept| - 1].t);
    assert first <= last by {
      if |kept| > 1 { assert kept[0].t < kept[|kept| - 1].t; }
    }
    (last - first) / HourSeconds + 1
  }

  /** Counting rows label by label, from how many rows each label contributes. */
  lemma {:induction false} RowsCount(kept: seq<Sample>, base: int, onHour: bool, k: nat)
    requires forall i :: 1 <= i <= k ==> |NewRow(kept, base, i)| == if i == 1 && !onHour then 0 else 1
    ensures |Rows(kept, base, k)| == if k == 0 then 0 else if onHour then k else k - 1
  {
    if k > 0 {
      RowsCount(kept, base, onHour, k - 1);
      RowsLength(kept, base, k);
    }
  }

  lemma RowsLength(kept: seq<Sample>, base: int, k: nat)
    requires k >= 1
    ensures |Rows(kept, base, k)| == |Rows(kept, base, k - 1)| + |NewRow(kept, base, k)|
  {
  }

  /** Every label from the second on gets its row; the first gets one only
      when the first kept sample is exactly on the hour. */
  lemma NewRowCount(kept: seq<Sample>, k: int)
    requires |kept| > 0 && StrictlyIncreasing(kept, Instant) && k >= 1
    ensures |NewRow(kept, FloorHour(kept[0].t), k)| ==
      if k == 1 && kept[0].t != FloorHour(kept[0].t) then 0 else 1
  {
    var base := FloorHour(kept[0].t);
    assert kept[0].t <= Label(base, k);
    assert Ffill(kept, Label(base, k)).Some?;
    if k == 1 {
      assert Label(base, 0) == base;
      if kept[0].t != base {
        forall j | 0 <= j < |kept| ensures kept[j].t > base {
          assert j == 0 || Instant(kept[0]) < Instant(kept[j]);
        }
        assert Ffill(kept, base).None?;
      } else {
        assert Ffill(kept, base).Some?;
      }
    } else {
      assert kept[0].t <= Label(base, k - 1);
      assert Ffill(kept, Label(base, k - 1)).Some?;
    }
  }

  /** With two or more hour labels, the frame has one row fewer than there
      are labels when the first kept sample is exactly on the hour, and two
      fewer otherwise: the first label then has no reading, so the second
      label's difference is undefined too. */
  lemma DeltaCount(kept: seq<Sample>)
    requires |kept| > 0 && StrictlyIncreasing(kept, Instant)
    requires Buckets(kept) >= 2
    ensures |HourlyDeltas(kept)| ==
      if OnHour(kept[0].t) then Buckets(kept) - 1 else Buckets(kept) - 2
  {
    var base := FloorHour(kept[0].t);
    var n := SpanHours(kept);
    SpanIsBuckets(kept);
    NewRowCounts(kept, n);
    assert HourlyDeltas(kept) == Rows(kept, base, n);
    RowsCount(kept, base, kept[0].t == base, n);
  }

  lemma NewRowCounts(kept: seq<Sample>, n: nat)
    requires |kept| > 0 && StrictlyIncreasing(kept, Instant)
    ensures var base := FloorHour(kept[0].t);
            forall i :: 1 <= i <= n ==>
              |NewRow(kept, base, i)| == if i == 1 && !(kept[0].t == base) then 0 else 1
  {
    forall i | 1 <= i <= n
      ensures |NewRow(kept, FloorHour(kept[0].t), i)| == if i == 1 && kept[0].t != FloorHour(kept[0].t) then 0 else 1
    {
      NewRowCount(kept, i);
    }
  }

  /** The labels after the first are the buckets less one. */
  lemma SpanIsBuckets(kept: seq<Sample>)
    requires |kept| > 0 && StrictlyIncreasing(kept, Instant)
    ensures SpanHours(kept) == Buckets(kept) - 1
  {
    var n := SpanHours(kept);
    var first := FloorHour(kept[0].t);
    var last := FloorHour(kept[|kept| - 1].t);
    assert last - first == n * HourSeconds;
    assert (n * HourSeconds) / HourSeconds == n;
  }

  // ---------------------------------------------------------------------
  // Worked scenarios
  // ---------------------------------------------------------------------

  /** Readings 100, 103, 107 at 10:00, 11:05 and 12:02 give 0 at 11:00 and
      3 at 12:00 (10:00 is instant 36000 here). */
  lemma HourlyScenario()
    ensures HourlyDeltas([Sample(36000, 100.0), Sample(39900, 103.0), Sample(43320, 107.0)])
         == [Row(39600, Some(0.0)), Row(43200, Some(3.0))]
  {
    var kept := [Sample(36000, 100.0), Sample(39900, 103.0), Sample(43320, 107.0)];
    HourlyScenarioRows();
    assert StrictlyIncreasing(kept, Instant);
    assert FloorHour(36000) == 36000;
    assert FloorHour(43320) == 43200;
    assert SpanHours(kept) == 2 by {
      assert 36000 + SpanHours(kept) * HourSeconds == 43200;
    }
    assert HourlyDeltas(kept) == Rows(kept, 36000, 2);
  }

  lemma HourlyScenarioReadings()
    ensures var kept := [Sample(36000, 100.0), Sample(39900, 103.0), Sample(43320, 107.0)];
      && Ffill(kept, 36000) == Some(100.0)
      && Ffill(kept, 39600) == Some(100.0)
      && Ffill(kept, 43200) == Some(103.0)
  {
    var kept := [Sample(36000, 100.0), Sample(39900, 103.0), Sample(43320, 107.0)];
    assert kept[..2] == [Sample(36000, 100.0), Sample(39900, 103.0)];
    assert kept[..2][..1] == [Sample(36000, 100.0)];
    assert LastAtOrBefore(kept[..2][..1], 39600) == 0;
    assert LastAtOrBefore(kept[..2], 39600) == 0;
    assert LastAtOrBefore(kept[..2][..1], 36000) == 0;
    assert LastAtOrBefore(kept[..2], 36000) == 0;
  }

  lemma HourlyScenarioRows()
    ensures Rows([Sample(36000, 100.0), Sample(39900, 103.0), Sample(43320, 107.0)], 36000, 2)
         == [Row(39600, Some(0.0)), Row(43200, Some(3.0))]
  {
    var kept := [Sample(36000, 100.0), Sample(39900, 103.0), Sample(43320, 107.0)];
    HourlyScenarioReadings();
    assert Label(36000, 0) == 36000 && Label(36000, 1) == 39600 && Label(36000, 2) == 43200;
    assert NewRow(kept, 36000, 1) == [Row(39600, Some(0.0))];
    assert NewRow(kept, 36000, 2) == [Row(43200, Some(3.0))];
    assert Rows(kept, 36000, 1) == [] + NewRow(kept, 36000, 1);
  }

  /** When the first kept sample is off the hour its own label has no
      reading, so the next label's row is dropped as well: readings at 10:30,
      11:10 and 12:30 leave only the 12:00 row. */
  lemma OffHourStartDropsFirstRow()
    ensures HourlyDeltas([Sample(37800, 100.0), Sample(40200, 103.0), Sample(45000, 107.0)])
         == [Row(43200, Some(3.0))]
  {
    var kept := [Sample(37800, 100.0), Sample(40200, 103.0), Sample(45000, 107.0)];
    OffHourRows();
    assert FloorHour(37800) == 36000;
    assert FloorHour(45000) == 43200;
    assert HourlyDeltas(kept) == Rows(kept, 36000, 2);
  }

  lemma OffHourReadings()
    ensures var kept := [Sample(37800, 100.0), Sample(40200, 103.0), Sample(45000, 107.0)];
      && Ffill(kept, 36000) == None
      && Ffill(kept, 39600) == Some(100.0)
      && Ffill(kept, 43200) == Some(103.0)
  {
    var kept := [Sample(37800, 100.0), Sample(40200, 103.0), Sample(45000, 107.0)];
    assert kept[..2] == [Sample(37800, 100.0), Sample(40200, 103.0)];
    assert kept[..2][..1] == [Sample(37800, 100.0)];
    assert kept[..2][..1][..0] == [];
    assert LastAtOrBefore(kept[..2][..1], 39600) == 0;
    assert LastAtOrBefore(kept[..2], 39600) == 0;
    assert LastAtOrBefore(kept[..2][..1], 36000) == -1;
    assert LastAtOrBefore(kept[..2], 36000) == -1;
  }

  lemma OffHourRows()
    ensures Rows([Sample(37800, 100.0), Sample(40200, 103.0), Sample(45000, 107.0)], 36000, 2)
         == [Row(43200, Some(3.0))]
  {
    var kept := [Sample(37800, 100.0), Sample(40200, 103.0), Sample(45000, 107.0)];
    OffHourReadings();
    assert Label(36000, 0) == 36000 && Label(36000, 1) == 39600 && Label(36000, 2) == 43200;
    assert NewRow(kept, 36000, 1) == [];
    assert NewRow(kept, 36000, 2) == [Row(43200, Some(3.0))];
    assert Rows(kept, 36000, 1) == [] + NewRow(kept, 36000, 1);
  }
}

=== FILE: ordering.dfy ===
/** Sorting by an integer key while keeping one element per key.

    This is the `sort_index()` + `index.duplicated(keep='first')` step of the
    history normaliser, and the index union that pandas performs when two
    series are put side by side in one frame. It is written once, generically
    over the element type and its key. */
module Ordering {

  /** Keys strictly ascend along `xs`: sorted, and no key occurs twice. */
  predicate StrictlyIncreasing<T>(xs: seq<T>, key: T -> int)
  {
    forall i, j :: 0 <= i < j < |xs| ==> key(xs[i]) < key(xs[j])
  }

  /** Some element of `xs` has key `k`. */
  predicate HasKey<T>(xs: seq<T>, k: int, key: T -> int)
  {
    exists i :: 0 <= i < |xs| && key(xs[i]) == k
  }

  /** `y` occurs in `xs`, and no element before that occurrence shares its key:
      `y` is the first-in-input representative of its key. */
  ghost predicate FirstWithKey<T>(xs: seq<T>, y: T, key: T -> int)
  {
    exists j :: 0 <= j < |xs| && xs[j] == y && forall m :: 0 <= m < j ==> key(xs[m]) != key(y)
  }

  /** Places `x` into the strictly increasing `xs`, unless its key is already taken. */
  function Insert<T(==,!new)>(xs: seq<T>, x: T, key: T -> int): (r: seq<T>)
    requires StrictlyIncreasing(xs, key)
    ensures StrictlyIncreasing(r, key)
    ensures HasKey(xs, key(x), key) ==> r == xs
    ensures !HasKey(xs, key(x), key) ==> |r| == |xs| + 1
    ensures forall y :: y in r <==> y in xs || (y == x && !HasKey(xs, key(x), key))
    decreases |xs|
  {
    if |xs| == 0 then [x]
    else if key(x) < key(xs[0]) then
      InsertFront(xs, x, key);
      [x] + xs
    else if key(x) == key(xs[0]) then xs
    else
      var rest := Insert(xs[1..], x, key);
      InsertBehind(xs, x, key, rest);
      [xs[0]] + rest
  }

  /** The front case of `Insert`: a key below every key of `xs` is new. */
  lemma InsertFront<T>(xs: seq<T>, x: T, key: T -> int)
    requires StrictlyIncreasing(xs, key)
    requires |xs| > 0 && key(x) < key(xs[0])
    ensures !HasKey(xs, key(x), key)
    ensures StrictlyIncreasing([x] + xs, key)
  {
    forall i | 0 <= i < |xs| ensures key(xs[i]) != key(x) {
      if i > 0 { assert key(xs[0]) < key(xs[i]); }
    }
  }

  /** The recursive case of `Insert`: putting the head of `xs` in front of the
      insertion into its tail gives a strictly increasing sequence with the
      same keys. */
  lemma InsertBehind<T(!new)>(xs: seq<T>, x: T, key: T -> int, rest: seq<T>)
    requires StrictlyIncreasing(xs, key)
    requires |xs| > 0 && key(xs[0]) < key(x)
    requires StrictlyIncreasing(rest, key)
    requires forall y :: y in rest <==> y in xs[1..] || (y == x && !HasKey(xs[1..], key(x), key))
    ensures HasKey(xs, key(x), key) <==> HasKey(xs[1..], key(x), key)
    ensures StrictlyIncreasing([xs[0]] + rest, key)
    ensures xs == [xs[0]] + xs[1..]
  {
    if HasKey(xs, key(x), key) {
      var i :| 0 <= i < |xs| && key(xs[i]) == key(x);
      assert xs[1..][i - 1] == xs[i];
    }
    if HasKey(xs[1..], key(x), key) {
      var i :| 0 <= i < |xs[1..]| && key(xs[1..][i]) == key(x);
      assert xs[i + 1] == xs[1..][i];
    }
    forall i, j | 0 <= i < j < |[xs[0]] + rest| ensures key(([xs[0]] + rest)[i]) < key(([xs[0]] + rest)[j]) {
      if i == 0 {
        var y := rest[j - 1];
        assert y in rest;
        if y in xs[1..] {
          var m :| 0 <= m < |xs[1..]| && xs[1..][m] == y;
          assert xs[m + 1] == y;
        }
      } else {
        assert ([xs[0]] + rest)[i] == rest[i - 1];
        assert ([xs[0]] + rest)[j] == rest[j - 1];
      }
    }
  }

  /** Sorts `xs` by key and keeps, of every key, the element that came first. */
  function SortUnique<T(==,!new)>(xs: seq<T>, key: T -> int): (r: seq<T>)
    ensures StrictlyIncreasing(r, key)
    ensures forall y :: y in r ==> y in xs
    ensures forall i :: 0 <= i < |xs| ==> HasKey(r, key(xs[i]), key)
    ensures |r| <= |xs|
    decreases |xs|
  {
    if |xs| == 0 then []
    else
      var prev := SortUnique(xs[..|xs| - 1], key);
      var r := Insert(prev, xs[|xs| - 1], key);
      SortUniqueStep(xs, key, xs[..|xs| - 1], prev);
      r
  }

  /** The step of `SortUnique`: inserting the last element into the result
      for the others keeps every key of the input. */
  lemma SortUniqueStep<T(!new)>(xs: seq<T>, key: T -> int, init: seq<T>, prev: seq<T>)
    requires |xs| > 0 && init == xs[..|xs| - 1] && StrictlyIncreasing(prev, key)
    requires forall i :: 0 <= i < |init| ==> HasKey(prev, key(init[i]), key)
    ensures forall i :: 0 <= i < |xs| ==> HasKey(Insert(prev, xs[|xs| - 1], key), key(xs[i]), key)
  {
    var x := xs[|xs| - 1];
    forall i | 0 <= i < |xs| ensures HasKey(Insert(prev, x, key), key(xs[i]), key) {
      if i < |xs| - 1 {
        assert init[i] == xs[i];
        InsertKeepsKey(prev, x, key, key(xs[i]));
      } else {
        InsertHasKey(prev, x, key);
      }
    }
  }

  /** Inserting never loses a key. */
  lemma InsertKeepsKey<T(!new)>(xs: seq<T>, x: T, key: T -> int, k: int)
    requires StrictlyIncreasing(xs, key) && HasKey(xs, k, key)
    ensures HasKey(Insert(xs, x, key), k, key)
  {
    var r := Insert(xs, x, key);
    var m :| 0 <= m < |xs| && key(xs[m]) == k;
    assert xs[m] in r;
    var n :| 0 <= n < |r| && r[n] == xs[m];
  }

  /** After inserting, the inserted element's key is present. */
  lemma InsertHasKey<T(!new)>(xs: seq<T>, x: T, key: T -> int)
    requires StrictlyIncreasing(xs, key)
    ensures HasKey(Insert(xs, x, key), key(x), key)
  {
    var r := Insert(xs, x, key);
    if !HasKey(xs, key(x), key) {
      assert x in r;
      var n :| 0 <= n < |r| && r[n] == x;
    }
  }

  /** Every key of the input is represented in the output exactly by the
      element with that key that came first in the input. */
  lemma {:induction false} SortUniqueKeepsFirst<T(!new)>(xs: seq<T>, key: T -> int)
    ensures forall y :: y in SortUnique(xs, key) ==> FirstWithKey(xs, y, key)
    decreases |xs|
  {
    if |xs| > 0 {
      var init := xs[..|xs| - 1];
      var x := xs[|xs| - 1];
      var prev := SortUnique(init, key);
      SortUniqueKeepsFirst(init, key);
      forall y | y in SortUnique(xs, key) ensures FirstWithKey(xs, y, key) {
        if y in prev {
          FirstWithKeyExtends(xs, y, key);
        } else {
          assert y == x && !HasKey(prev, key(x), key);
          LastKeyIsNew(xs, key, init, prev);
        }
      }
    }
  }

  /** The first representative in a prefix stays first in the whole. */
  lemma FirstWithKeyExtends<T>(xs: seq<T>, y: T, key: T -> int)
    requires |xs| > 0 && FirstWithKey(xs[..|xs| - 1], y, key)
    ensures FirstWithKey(xs, y, key)
  {
    var init := xs[..|xs| - 1];
    var j :| 0 <= j < |init| && init[j] == y && forall m :: 0 <= m < j ==> key(init[m]) != key(y);
    assert xs[j] == y;
    forall m | 0 <= m < j ensures key(xs[m]) != key(y) {
      assert init[m] == xs[m];
    }
  }

  /** A last element whose key the others lack is the first with its key. */
  lemma LastKeyIsNew<T(!new)>(xs: seq<T>, key: T -> int, init: seq<T>, prev: seq<T>)
    requires |xs| > 0 && init == xs[..|xs| - 1]
    requires forall i :: 0 <= i < |init| ==> HasKey(prev, key(init[i]), key)
    requires !HasKey(prev, key(xs[|xs| - 1]), key)
    ensures FirstWithKey(xs, xs[|xs| - 1], key)
  {
    forall m | 0 <= m < |xs| - 1 ensures key(xs[m]) != key(xs[|xs| - 1]) {
      assert init[m] == xs[m];
      assert HasKey(prev, key(init[m]), key);
    }
  }

  /** Sorting a sequence with one more element at its end is inserting that
      element into the sorted prefix. */
  lemma SortUniqueSnoc<T(!new)>(xs: seq<T>, x: T, key: T -> int)
    ensures SortUnique(xs + [x], key) == Insert(SortUnique(xs, key), x, key)
  {
    assert (xs + [x])[..|xs + [x]| - 1] == xs;
  }

  /** A strictly increasing sequence stays so without its head. */
  lemma TailStrictlyIncreasing<T>(xs: seq<T>, key: T -> int)
    requires |xs| > 0 && StrictlyIncreasing(xs, key)
    ensures StrictlyIncreasing(xs[1..], key)
  {
    forall i, j | 0 <= i < j < |xs[1..]| ensures key(xs[1..][i]) < key(xs[1..][j]) {
      assert xs[1..][i] == xs[i + 1] && xs[1..][j] == xs[j + 1];
    }
  }

  /** Keys in the output are exactly the keys of the input, each once. */
  lemma SortUniqueKeys<T(!new)>(xs: seq<T>, key: T -> int, k: int)
    ensures HasKey(SortUnique(xs, key), k, key) <==> HasKey(xs, k, key)
  {
    var r := SortUnique(xs, key);
    if HasKey(r, k, key) {
      var i :| 0 <= i < |r| && key(r[i]) == k;
      assert r[i] in xs;
    }
  }
}

=== FILE: sensor_card.dfy ===
/** The sensor card, `SensorCard` in ui.py: an emoji chosen from the sensor's
    name and a severity style chosen from its reading. */
module SensorCard {
  import opened Wrappers

  /** Python's `str.lower` on one character, for the ASCII letters. */
  function LowerChar(c: char): char
  {
    if 'A' <= c <= 'Z' then (c as int + 32) as char else c
  }

  function Lower(s: string): (r: string)
    ensures |r| == |s| && forall i :: 0 <= i < |s| ==> r[i] == LowerChar(s[i])
  {
    seq(|s|, i requires 0 <= i < |s| => LowerChar(s[i]))
  }

  /** Lower-casing a lower-cased name changes nothing. */
  lemma LowerIdempotent(s: string)
    ensures Lower(Lower(s)) == Lower(s)
  {
    forall i | 0 <= i < |s|
      ensures Lower(Lower(s))[i] == Lower(s)[i]
    {
      var c := s[i];
      if 'A' <= c <= 'Z' {
        assert 'a' <= LowerChar(c) <= 'z';
      }
    }
  }

  /** Python's `key in name` on strings: a contiguous occurrence. */
  predicate Contains(name: string, key: string)
  {
    exists i :: 0 <= i <= |name| && OccursAt(name, key, i)
  }

  predicate OccursAt(name: string, key: string, i: int)
  {
    0 <= i && i + |key| <= |name| && name[i..i + |key|] == key
  }

  const Lightning: string := "\U{26A1}"
  const DefaultEmoji: string := "\U{1F4CA}"

  /** The emoji map in its insertion order; a dict iterates in that order. */
  const EmojiTable: seq<(string, string)> := [
    ("power", Lightning),
    ("energy", Lightning),
    ("battery", "\U{1F50B}"),
    ("temperature", "\U{1F321}\U{FE0F}"),
    ("humidity", "\U{1F4A7}"),
    ("co2", "\U{1F32C}\U{FE0F}"),
    ("motion", "\U{1F464}"),
    ("light", "\U{1F4A1}"),
    ("network", "\U{1F310}"),
    ("cost", "\U{1F4B0}")
  ]

  /** Index of the first table key that occurs in `name`, searching from `from`. */
  function FirstMatch(table: seq<(string, string)>, name: string, from: nat): (r: Option<nat>)
    requires from <= |table|
    ensures r.Some? ==> from <= r.value < |table| && Contains(name, table[r.value].0)
    ensures r.Some? ==> forall j :: from <= j < r.value ==> !Contains(name, table[j].0)
    ensures r.None? ==> forall j :: from <= j < |table| ==> !Contains(name, table[j].0)
    decreases |table| - from
  {
    if from == |table| then None
    else if Contains(name, table[from].0) then Some(from)
    else FirstMatch(table, name, from + 1)
  }

  /** `get_sensor_emoji`: the emoji of the first key, in table order, that
      occurs in the lower-cased name; the bar chart when none does. */
  function Emoji(sensorName: string): (e: string)
  {
    var m := FirstMatch(EmojiTable, Lower(sensorName), 0);
    if m.Some? then EmojiTable[m.value].1 else DefaultEmoji
  }

  /** `Emoji` against the table: some key matches and every earlier key does
      not, or no key matches and the emoji is the default. */
  lemma EmojiIsFirstMatch(sensorName: string)
    ensures (exists k :: 0 <= k < |EmojiTable| && Contains(Lower(sensorName), EmojiTable[k].0))
            ==> exists k :: 0 <= k < |EmojiTable| && Contains(Lower(sensorName), EmojiTable[k].0)
                  && (forall j :: 0 <= j < k ==> !Contains(Lower(sensorName), EmojiTable[j].0))
                  && Emoji(sensorName) == EmojiTable[k].1
    ensures (forall k :: 0 <= k < |EmojiTable| ==> !Contains(Lower(sensorName), EmojiTable[k].0))
            ==> Emoji(sensorName) == DefaultEmoji
  {
    var m := FirstMatch(EmojiTable, Lower(sensorName), 0);
    if m.Some? {
      var k := m.value;
      assert Contains(Lower(sensorName), EmojiTable[k].0);
    }
  }

  /** The emoji does not depend on letter case. */
  lemma EmojiIgnoresCase(sensorName: string)
    ensures Emoji(Lower(sensorName)) == Emoji(sensorName)
  {
    LowerIdempotent(sensorName);
  }

  /** "power" precedes "battery" in the table, so a battery power sensor is
      shown with the lightning bolt. */
  lemma BatteryPowerIsLightning()
    ensures Emoji("sensor.Battery_Power") == Lightning
  {
    var name := Lower("sensor.Battery_Power");
    assert name == "sensor.battery_power";
    assert name[15..20] == "power";
    assert OccursAt(name, EmojiTable[0].0, 15);
  }

  /** A name that is exactly a short key gets that key's emoji when no earlier
      key fits in it. */
  lemma Co2Emoji()
    ensures Emoji("CO2") == "\U{1F32C}\U{FE0F}"
  {
    var name := Lower("CO2");
    assert name == "co2";
    assert name[0..3] == "co2";
    assert OccursAt(name, EmojiTable[5].0, 0);
    assert FirstMatch(EmojiTable, name, 0) == Some(5);
  }

  /** The style of the value line. */
  datatype Severity = Normal | Warning | Danger

  function ClassName(s: Severity): string
  {
    match s
    case Normal => "metric"
    case Warning => "metric warning"
    case Danger => "metric danger"
  }

  function Rank(s: Severity): nat
  {
    match s
    case Normal => 0
    case Warning => 1
    case Danger => 2
  }

  /** The severity of a reading, `None` standing for a value `float` rejects. */
  function SeverityOf(value: Option<real>): (s: Severity)
  {
    if value.None? then Normal
    else if value.value >= 70.0 then Danger
    else if value.value >= 30.0 then Warning
    else Normal
  }

  /** The three bands: danger from 70 up, warning from 30 below 70, plain
      below 30 and for unparsable values. */
  lemma SeverityBands(value: Option<real>)
    ensures SeverityOf(value) == Danger <==> value.Some? && value.value >= 70.0
    ensures SeverityOf(value) == Warning <==> value.Some? && 30.0 <= value.value < 70.0
    ensures SeverityOf(value) == Normal <==> value.None? || value.value < 30.0
  {
  }

  /** A higher reading never gets a milder style. */
  lemma SeverityMonotone(x: real, y: real)
    requires x <= y
    ensures Rank(SeverityOf(Some(x))) <= Rank(SeverityOf(Some(y)))
  {
  }

  /** What `SensorCard.render` puts on the card. */
  datatype Card = Card(emoji: string, name: string, style: string, reading: string)

  /** `SensorCard.render` with `float` as an opaque parser. */
  function RenderCard(sensorName: string, sensorValue: string, number: string -> Option<real>): (c: Card)
    ensures c.name == sensorName && c.reading == sensorValue
    ensures c.emoji == Emoji(Lower(sensorName))
    ensures number(sensorValue).None? ==> c.style == "metric"
    ensures number(sensorValue).Some? && number(sensorValue).value >= 70.0 ==> c.style == "metric danger"
    ensures number(sensorValue).Some? && 30.0 <= number(sensorValue).value < 70.0 ==> c.style == "metric warning"
    ensures number(sensorValue).Some? && number(sensorValue).value < 30.0 ==> c.style == "metric"
  {
    EmojiIgnoresCase(sensorName);
    Card(Emoji(sensorName), sensorName, ClassName(SeverityOf(number(sensorValue))), sensorValue)
  }
}

=== FILE: wrappers.dfy ===
/** Failure-compatible wrappers shared by every module of the model.
    `None` stands for Python's `None` (a missing value, a pandas NaN cell, a
    function that gave up); `Failure` stands for an exception that the
    surrounding `try` turned into an error notice. */
module Wrappers {

  datatype Option<+T> = None | Some(value: T)

  datatype Result<+R, +E> = Success(value: R) | Failure(error: E)
}
